=== FILE: README.md ===
# HadCM3B ensemble generator: a verified model of its core

The repository builds perturbed-parameter ensembles for the HadCM3B climate model.
This project models four parts of it in Dafny:

- **The ensemble job-identifier generator** (`generate_ensemble_jobid`, helpers.py). A 4-character
  experiment name and an index in [0, 259] give a 5-character job id. The index's bucket of 26 picks a
  case transform of the name. The suffix is the letter `a + index mod 26`, upper-cased in buckets
  130-155 and 234-259. The two `ValueError`s are the `Err` cases of a `Result`. The model proves:
  - the error conditions, and that every id is 5 characters long;
  - that every bucket changes letter case only, and what the suffix is;
  - a decoder that gets the index back from an id, for names of four lower-case letters. So ids are
    unique for such names, and a counterexample shows they are not for other names;
  - the concrete ids of experiment "xqab".
- **The parameter-perturbation engine** of the five table scripts. `perturb_list` is one definition:
  - It takes the script as a policy table (`Perturbation.RuleFor`, `Perturbation.PrecisionFor`):
    pro-rata shift, tree override, broadcast, additive delta or no rule, then rounding to 3 or 5
    decimals (KAPS unrounded in the soil-carbon scripts).
  - Its in-place form (`Perturbation.PerturbList`) is proved equal to it.

  The generators come in two forms:
  - the enumerated one (`perturb_params`, `generate_perturbed_params`);
  - the random one (`generate_random_perturbed_params`), where TLOW's draw also drives TUPP.

  Each is a specification function plus the script's loops as methods proved equal to it. The fixed
  tables of the single-parameter, random and soil-carbon scripts are modelled as constants, and so is
  the per-candidate construction of the candidates script, with its loop over candidates.
- **The table writer** (`_format_json_string`, `create_json_file`, helpers.py, duplicated in
  create_param_table.py). It is a class for the open file and a method that writes step by step as
  the script does. That method is proved to produce a layout function. The layout is proved to be
  the JSON array of the indented objects, default set first, and the indentation is proved
  reversible. `json.dumps` is a parameter.
- **The plot's subplot grid** (`plot_param_distributions`, helpers.py). Four of the five table scripts
  plot their range keys after writing their table, the i-th key in cell (i // 2, i % 2) of a 3 × 2 grid. The
  model proves that this grid holds six keys. So the plot raises IndexError in the random,
  soil-carbon and candidates scripts, after their table is written (see "## Findings").

Modelling decisions:

- Python exceptions (`ValueError`, `KeyError`, `IndexError`) are values (`Result.Err`), never
  preconditions.
- Floating-point values are `real`. `round(x, n)` is modelled exactly on reals, as Python defines it:
  the nearest multiple of 10^-n, ties to the even one.
- The values `random.uniform` returns are an input: `draws[n][j]` is the value drawn for the `j`-th
  key of the `n`-th set. `InRanges` states that a draw lies in its key's [min, max].
- A Python dict is a `ParamSets.Dict`: its keys in insertion order plus a map. Assigning to a key that
  is already present keeps its place.
- create_ensemble_jobs.py pairs its `i`-th record with `generate_ensemble_jobid(ensemble_exp, i)`
  (create_ensemble_jobs.py:49-50). So the default set gets index 0, and a table of more than 260
  records raises at record 260 (`JobIds.GenerateEnsembleJobId`'s `IndexOutOfRange`).
- Bucket 9 upper-cases the suffix (helpers.py:80-82), so index 259 of "xqab" gives "XqabZ"
  (`JobIds.XqabExamples`).
- The candidates script lists TUPP in its specification after TLOW. TLOW's step writes TUPP with
  TLOW's draw, then TUPP's own step overwrites it with its own draw, pinned to 0
  (`Candidates.KeyValue`).

## Model

| member | source | states |
|---|---|---|
| ParamSets.Put | create_param_table.py:42-45 | `d[k] = v`: the key's value is replaced, a present key keeps its place, a new key goes last, and a well-formed dict stays well-formed |
| JobIds.GenerateEnsembleJobId | helpers.py:10-86 | the name-length error is raised exactly when the name is not 4 characters; the index error exactly when the name is fine and the index is outside [0, 259]; every id has 5 characters |
| JobIds.BucketTransform | helpers.py:31-82 | each bucket's transformed name keeps 4 characters |
| JobIds.Capitalize | helpers.py:36 | `str.capitalize` keeps the length |
| JobIds.Upper | helpers.py:41 | `str.upper` on a character: a lower-case ASCII letter becomes upper-case, any other character is kept |
| JobIds.Lower | helpers.py:40 | `str.lower` on a character: an upper-case ASCII letter becomes lower-case, any other character is kept |
| JobIds.LowerStr | helpers.py:53-56 | `str.lower` keeps the length; its effect on ids is stated by `IdIsNameUpToCasePlusSuffix` |
| JobIds.IdIsNameUpToCasePlusSuffix | helpers.py:32-86 | every valid call succeeds; lower-casing the id's first 4 characters gives the lower-cased name; the 5th is the (index mod 26)-th letter, upper-cased exactly in buckets 130-155 and 234-259 (`SuffixOf`) |
| JobIds.FindBucket | helpers.py:32-82 | the bucket found has the searched case pattern, and no bucket has it when none is found |
| JobIds.DecodeIndex | helpers.py:32-82 | the decoder used for the uniqueness proof (`DecodeGenerated`, `IdsUniqueForLowerName`): a decoded index is always in [0, 259] |
| JobIds.FindBucketOf | helpers.py:32-82 | the ten buckets have ten distinct case patterns: a bucket's own pattern finds that bucket |
| JobIds.PatternOfGenerated | helpers.py:32-82 | for a lower-case name, the id's case pattern is the table entry of the index's bucket |
| JobIds.DecodeGenerated | helpers.py:10-86 | round trip: for a name of four lower-case letters, decoding the id gives back the index |
| JobIds.IdsUniqueForLowerName | helpers.py:32-82 | for a name of four lower-case letters, distinct indices give distinct ids |
| JobIds.UpperNameCollides | helpers.py:32-33 | uniqueness fails for other names: "XQAB" gives "XQABa" at both 0 and 156 |
| JobIds.XqabExamples | helpers.py:32-82 | "xqab" gives "xqaba" at 0, "Xqaba" at 26 and "XqabZ" at 259 |
| Rounding.Pow10 | create_param_table.py:65 | the scale 10^n is at least 1 |
| Rounding.Round | create_param_table.py:65 | definition of `round(x, n)`: the scaled value rounded half-to-even, scaled back; characterised by `RoundIsNearest`, `RoundBracket`, `RoundKeepsGridValue` and `RoundIdempotent` |
| Rounding.RoundHalfEven | create_param_table.py:65 | the integer chosen is within 1/2 of the value |
| Rounding.TiesToEven | create_param_table.py:65 | a value half-way between two integers goes to the even one |
| Rounding.HalfUnit | create_param_table_csoil.py:74-77 | the most rounding can move a value: 0 without rounding (KAPS), and more than 0 but at most 1/2 with n decimals |
| Rounding.ApplyAll | create_param_table_csoil.py:74-77 | the comprehension keeps the length, moves each value by at most half a unit in the last kept place, and returns the values unchanged without rounding |
| Rounding.RoundIsNearest | create_param_table.py:65 | `round(x, n)` lies within half a unit in the n-th decimal of x |
| Rounding.RoundBracket | create_param_table.py:65 | `round(x, n)` is the integer nearest to x·10^n, divided back |
| Rounding.NearestOnGrid | create_param_table.py:65 | a grid value within half a step of the scaled value is within half a unit of the value |
| Rounding.ApplyIsNearest | create_param_table_csoil.py:74-77 | the script's rounding (or none, for KAPS) moves a value by at most half a unit |
| Rounding.RoundKeepsGridValue | create_param_table.py:65 | a value with at most n decimals is left unchanged by `round(x, n)` |
| Rounding.RoundIdempotent | create_param_table.py:65 | rounding twice is rounding once |
| Perturbation.Raw | create_param_table.py:51-63 | a rule raises IndexError exactly on too short a vector (pro-rata on an empty one, the tree override below 2 slots) and otherwise keeps the length |
| Perturbation.RuleFor | create_param_table.py:53-63 | definition: the rule each script applies to a key (the same branches in all five scripts, with ALPHA, G_AREA, Q10 and KAPS added where those scripts add them); characterised by `RawRuleEffects`, `TemperatureRules` and `ScriptPolicies` |
| Perturbation.PrecisionFor | create_param_table.py:65 | definition: each script's final rounding of a key; characterised by `ApplyIsNearest` and `ScriptPolicies` |
| Perturbation.Perturbed | create_param_table.py:51-66 | `perturb_list` raises IndexError exactly on a vector too short for the key's rule and otherwise returns a list as long as the defaults; its values are stated by `PerturbedNearRaw` and `RawRuleEffects` |
| Perturbation.RawRuleEffects | create_param_table.py:53-63 | pro-rata puts the new value in slot 0 and keeps every difference between slots; the override sets slots 0 and 1 and keeps the rest; broadcast sets every slot; delta adds the value to every slot; no rule keeps the vector |
| Perturbation.AnchoredDrawReproduces | create_param_table_csoil.py:60-72 | a new value equal to the vector's own anchor for its rule gives the vector back unchanged |
| Perturbation.PerturbList | create_param_table.py:51-66 | the copy-then-update-in-place loop (and the same in the other four scripts, through the policy table) computes `Perturbed` |
| Perturbation.PerturbedKeepsLength | create_param_table.py:51-66 | `perturb_list` fails exactly on a vector too short for its rule, and otherwise returns a list as long as its input |
| Perturbation.PerturbedNearRaw | create_param_table.py:65 | each returned value is within half a unit of the unrounded rule's value |
| Perturbation.DrawnSlotsStayInRange | create_param_table_random.py:59-71 | a slot the rule sets to the drawn value stays in [min, max] up to rounding when the draw does |
| Perturbation.TemperatureRules | create_param_table.py:62-65 | in every script TLOW and TUPP take the additive delta and the same rounding |
| Perturbation.SharedDeltaKeepsGap | create_param_table_random.py:68-71 | TLOW and TUPP shifted by one value keep their default gap, up to the rounding of both |
| Perturbation.ScriptPolicies | create_param_table_csoil_from_candidates.py:37-55 | LAI_MIN and TLOW rules are the same in every script; ALPHA and G_AREA are pro-rata in the random script and in no other; Q10 and KAPS are broadcast exactly in the two soil-carbon scripts; KAPS is unrounded exactly there, and no other key is ever left unrounded |
| Perturbation.KeepsThreeDecimals | create_param_table.py:65 | a value with 3 decimals survives `round(value, 3)` |
| Perturbation.ParamTableProRataExample | create_param_table.py:53-56 | F0 of the acang defaults perturbed to 0.8 is [0.8, 0.8, 0.825, 0.725, 0.825] |
| Perturbation.ParamTableDeltaExample | create_param_table.py:62-63 | TLOW of the acang defaults shifted by -2.5 is [-2.5, -7.5, -2.5, 10.5, -2.5] |
| Perturbation.AssignPerturbed | create_param_table.py:42-45 | the assignment fails exactly on a missing key (or TUPP missing for TLOW) or a too-short vector; otherwise the target changes only at the key, and at TUPP with the same value when the key is TLOW |
| Perturbation.AssignPerturbedKeys | create_param_table.py:42-45 | keys already present keep their order, and the result stays a well-formed dict |
| Perturbation.AssignPerturbedInPlace | create_param_table_random.py:47-51 | the script's statements compute the same assignment |
| Enumerated.SetsForValues | create_param_table.py:37-47 | one set per listed value |
| Enumerated.PerturbedSet | create_param_table.py:42-45 | definition: a copy of the defaults with the key perturbed; characterised by `PerturbedSetChangesOnlyKey` |
| Enumerated.PerturbParams | create_param_table.py:37-47 | `perturb_params` raises KeyError for a key the specification lacks; otherwise it yields one set per listed value |
| Enumerated.GeneratePerturbedParams | create_param_table.py:29-34 | the output has one set per value the specification lists, over all its keys |
| Enumerated.SetsForValuesElementwise | create_param_table.py:40-46 | the m-th set is the defaults perturbed to the m-th value, and the group fails exactly when one value fails |
| Enumerated.Enumerate | create_param_table.py:29-34 | the output has as many sets as the specification lists values |
| Enumerated.PerturbParamsLoop | create_param_table.py:37-47 | the append loop computes `perturb_params` |
| Enumerated.GeneratePerturbedParamsLoop | create_param_table.py:29-34 | the extend loop computes `generate_perturbed_params` |
| Enumerated.PerturbedSetChangesOnlyKey | create_param_table.py:42-46 | each set has the defaults' keys in their order, the perturbed vector at the key, TUPP shifted by the same value for TLOW, and every other key at its default |
| Enumerated.EnumerateGroupsByKey | create_param_table.py:29-34 | the output is grouped by key in specification order: the j-th key's m-th set sits after the values of the keys before it |
| Enumerated.EnumerateHead | create_param_table.py:32-33 | a successful output is the first key's group followed by the rest |
| Enumerated.TotalValuesSplit | create_param_table.py:32-33 | counting the values of a prefix of keys is the first key's count plus the rest |
| Enumerated.EnumeratePosition | create_param_table.py:29-47 | the set at position (values before key j) + m is the defaults perturbed at key j to its m-th value |
| Enumerated.EnumerateFailsIffSomeKeyFails | create_param_table.py:29-34 | the generator fails exactly when some key's group fails |
| Enumerated.AcangKeyPerturbs | create_param_table_single.py:9-17 | every specification key can be perturbed against the acang defaults, to any value |
| Enumerated.SingleParamKeysSucceed | create_param_table_single.py:55-67 | every key's group of the single-parameter table is generated |
| Enumerated.TotalValuesConcat | create_param_table_single.py:47-52 | value counts add up over consecutive runs of keys |
| Enumerated.TotalValuesSingle | create_param_table_single.py:47-52 | one key's count is its list's length |
| Enumerated.SingleParamGroupSizes | create_param_table_single.py:22-44 | 4 values each for F0, LAI_MIN, NL0, R_GROW, TLOW; 5 for V_CRIT_ALPHA |
| Enumerated.SingleParamCounts | create_param_table_single.py:22-44 | 20 values before V_CRIT_ALPHA's, 25 in all |
| Enumerated.SingleParamTableHas25Sets | create_param_table_single.py:89 | the single-parameter table is generated without an exception and has 25 sets |
| Enumerated.SingleParamPlotFits | create_param_table_single.py:89-98 | the single-parameter table is generated, and its six range keys fit the plot's grid, so its plot does not raise |
| Enumerated.GroupOfKey | create_param_table_single.py:47-52 | the j-th key's m-th value gives the set at position (values before it) + m of the whole table |
| Enumerated.SingleParamEnds | create_param_table_single.py:22-43 | F0 comes first with [0.8, 0.85, 0.90, 0.95] and V_CRIT_ALPHA last with [0.0, 0.25, 0.5, 0.75, 1.0] |
| Enumerated.SingleParamFirstGroup | create_param_table_single.py:47-52 | sets 0-3 perturb F0 to its four values in order |
| Enumerated.SingleParamLastGroup | create_param_table_single.py:47-52 | sets 20-24 perturb V_CRIT_ALPHA to its five values in order |
| RandomMode.StepFailsIff | create_param_table_random.py:46-51 | a key's step raises exactly when its range has fewer than two bounds, its default (or TUPP's, for TLOW) is missing, or its vector is too short; neither the draw nor the set being filled matters |
| RandomMode.Step | create_param_table_random.py:46-51 | definition: one key of a set, reading its range and then assigning its perturbed vector; characterised by `StepFailsIff` and `StepEntry` |
| RandomMode.DrawSet | create_param_table_random.py:44-52 | definition: one set filled from `{}` key by key; characterised by `DrawSetFailsIff`, `DrawSetHoldsSpecKeys` and `SpecKeyValue` |
| RandomMode.RandomSets | create_param_table_random.py:41-53 | one set per draw vector |
| RandomMode.RandomSetsElementwise | create_param_table_random.py:41-53 | the n-th set is built from the n-th draw, and the run fails exactly when one set fails |
| RandomMode.PrefixErrorPersists | create_param_table_random.py:45-51 | the first exception ends the set: every longer prefix fails with it |
| RandomMode.PrefixFailsIff | create_param_table_random.py:45-51 | a set under construction fails exactly when one of the keys visited so far fails |
| RandomMode.PrefixStepFails | create_param_table_random.py:46-51 | after a successful prefix, the next key alone decides failure |
| RandomMode.PrefixWellFormed | create_param_table_random.py:44-51 | the set filled from `{}` is a well-formed dict |
| RandomMode.PrefixKeys | create_param_table_random.py:44-51 | the set holds exactly the entries some visited key wrote (its own, and TUPP for TLOW) |
| RandomMode.PrefixValue | create_param_table_random.py:45-51 | each entry is its default perturbed by the value drawn for the last key that wrote it |
| RandomMode.StepEntry | create_param_table_random.py:47-51 | a step writes the perturbed default into the entries it writes and leaves every other entry as it was |
| RandomMode.DrawSetFailsIff | create_param_table_random.py:44-51 | a set fails exactly when one of its keys fails |
| RandomMode.DrawSetHoldsSpecKeys | create_param_table_random.py:44-51 | a set's keys are exactly the specification's keys, plus TUPP when it lists TLOW |
| RandomMode.SpecKeyValue | create_param_table_random.py:46-47 | each specification key holds its default perturbed by its own draw (for TUPP: when TLOW does not come after it) |
| RandomMode.TuppFollowsTlow | create_param_table_random.py:48-51 | when the specification lists TLOW but not TUPP, TUPP is perturbed by TLOW's draw |
| RandomMode.AnchoredDrawReproducesDefault | create_param_table_csoil.py:49-50 | a draw at its rule's anchor reproduces the default, rounded as the script rounds it |
| RandomMode.DrawnValueStaysInRange | create_param_table_random.py:46-47 | the slots a rule sets to the draw stay in the key's [min, max] up to rounding |
| RandomMode.TlowTuppGapKept | create_param_table_random.py:48-51 | in a drawn set TUPP - TLOW equals the default gap up to rounding of both |
| RandomMode.DrawAndAssign | create_param_table_random.py:46-51 | the inner loop's body computes one step |
| RandomMode.BuildSet | create_param_table_random.py:44-52 | the inner loop, filling `{}` key by key, builds the specified set or raises its exception |
| RandomMode.GenerateRandomPerturbedParamsLoop | create_param_table_random.py:41-53 | the outer loop computes `generate_random_perturbed_params` |
| RandomMode.RandomKeySucceeds | create_param_table_random.py:12-38 | every key of the random script's specification can be drawn and assigned |
| RandomMode.RandomGeneratorNeverFails | create_param_table_random.py:75-77 | the generator call never raises and yields exactly N sets |
| RandomMode.RandomScriptAsWritten | create_param_table_random.py:75-84 | as written, the generator succeeds and the plot of the seven range keys raises IndexError (in the script the plot comes after the table is written) |
| Csoil.CsoilSpecWellFormed | create_param_table_csoil.py:29-41 | the soil-carbon specification is a dict without TUPP |
| Csoil.CsoilKeySucceeds | create_param_table_csoil.py:44-56 | every key of the specification can be drawn and assigned |
| Csoil.CsoilGeneratorNeverFails | create_param_table_csoil.py:81-83 | the generator call never raises and yields N sets |
| Csoil.CsoilScriptAsWritten | create_param_table_csoil.py:81-90 | as written, the generator succeeds and the plot of the eight range keys raises IndexError (in the script the plot comes after the table is written) |
| Csoil.CsoilSet | create_param_table_csoil.py:44-56 | one set per draw vector, the one the generator builds |
| Csoil.CsoilDrawsPinned | create_param_table_csoil.py:29-41 | in-range draws of the degenerate ranges equal the defaults' anchors; Q10 and KAPS lie in their ranges |
| Csoil.CsoilVegetationKeysReproduced | create_param_table_csoil.py:12-41 | F0, LAI_MIN, NL0, R_GROW, TLOW and V_CRIT_ALPHA come out as their defaults, rounded to 3 decimals |
| Csoil.CsoilVegetationAnchored | create_param_table_csoil.py:12-41 | each degenerate range is the default vector's own anchor |
| Csoil.CsoilTuppReproduced | create_param_table_csoil.py:51-54 | TUPP, shifted by TLOW's pinned draw 0, is its default rounded to 3 decimals |
| Csoil.CsoilTuppRule | create_param_table_csoil.py:71-77 | TUPP shifted by 0 is its default rounded |
| Csoil.CsoilSoilRules | create_param_table_csoil.py:69-77 | Q10 and KAPS are broadcast over their one-slot defaults; Q10 rounded to 3 decimals, KAPS not |
| Csoil.CsoilSoilKeysVary | create_param_table_csoil.py:44-56 | every set holds Q10 as its rounded draw and KAPS as its raw draw |
| Candidates.CandidateDefaults | create_param_table_csoil_from_candidates.py:67-78 | the defaults hold exactly the ten listed keys, in that order |
| Candidates.CandidateSpec | create_param_table_csoil_from_candidates.py:80-94 | building the ranges raises IndexError exactly when a pinned vector is empty; otherwise the ranges hold the ten keys in order |
| Candidates.CandidateTable | create_param_table_csoil_from_candidates.py:96-98 | a candidate's table has one set per draw vector |
| Candidates.DefaultKeysDistinct | create_param_table_csoil_from_candidates.py:67-78 | the ten keys are distinct |
| Candidates.CandidateDictsWellFormed | create_param_table_csoil_from_candidates.py:67-94 | the defaults and the ranges are well-formed dicts |
| Candidates.CandidateTableElementwise | create_param_table_csoil_from_candidates.py:96-98 | the n-th set is drawn with the n-th draw vector |
| Candidates.DefaultsLookup | create_param_table_csoil_from_candidates.py:67-78 | each key holds the candidate's vector (or `[]`), and Q10 and KAPS hold [2.0] and [5.0e-9] |
| Candidates.PinnedVectorsFromCandidate | create_param_table_csoil_from_candidates.py:67-84 | a pinned vector of the defaults is empty exactly when the candidate's is |
| Candidates.CandidateVector | create_param_table_csoil_from_candidates.py:68-75 | the vegetation vectors are the candidate's own |
| Candidates.CandidateStepFails | create_param_table_csoil_from_candidates.py:21-49 | only LAI_MIN's step can fail, exactly when the candidate's LAI_MIN has fewer than two slots |
| Candidates.StepOverDefaults | create_param_table_csoil_from_candidates.py:25-31 | the same, over any dicts holding the candidate's defaults and two-bound ranges |
| Candidates.CandidateSpecRanges | create_param_table_csoil_from_candidates.py:80-94 | every key's range has two bounds |
| Candidates.RangeHasTwoBounds | create_param_table_csoil_from_candidates.py:80-94 | each constructed range is a [min, max] pair |
| Candidates.CandidateTableFailsIff | create_param_table_csoil_from_candidates.py:80-98 | a candidate's table fails exactly when a pinned vector is empty, or when LAI_MIN has fewer than two slots and a set is drawn |
| Candidates.CandidateSetFailsIff | create_param_table_csoil_from_candidates.py:21-49 | once the ranges are built, a set fails exactly when LAI_MIN has fewer than two slots, whatever the draw |
| Candidates.FailsOnlyAtLaiMin | create_param_table_csoil_from_candidates.py:21-33 | a set whose keys fail only at LAI_MIN fails exactly then |
| Candidates.PinnedVector | create_param_table_csoil_from_candidates.py:37-49 | the pinned result keeps the vector's length |
| Candidates.PinnedRuleEffect | create_param_table_csoil_from_candidates.py:37-49 | each vegetation rule with its pinned draw gives the pinned vector: LAI_MIN's slot 1 becomes slot 0, R_GROW and V_CRIT_ALPHA become all slot 0, the rest are kept |
| Candidates.CandidateDescribed | create_param_table_csoil_from_candidates.py:67-94 | the candidate's defaults and ranges have the shape the generic lemmas use |
| Candidates.DrawPinned | create_param_table_csoil_from_candidates.py:80-91 | in-range draws of the degenerate ranges are the candidate's first values, and 0 for TLOW and TUPP |
| Candidates.SoilDraws | create_param_table_csoil_from_candidates.py:92-93 | Q10 and KAPS are drawn from [1.5, 2.5] and [2.5e-9, 7.5e-9] |
| Candidates.KeyValue | create_param_table_csoil_from_candidates.py:25-31 | every key, TUPP included, is perturbed by its own draw: TUPP's own step overwrites the value TLOW's step wrote |
| Candidates.VegetationValue | create_param_table_csoil_from_candidates.py:80-91 | each vegetation key comes out as its pinned vector rounded to 5 decimals |
| Candidates.PinnedPerturbed | create_param_table_csoil_from_candidates.py:37-54 | `perturb_list` with the pinned draw returns the pinned vector rounded to 5 decimals |
| Candidates.SoilValues | create_param_table_csoil_from_candidates.py:46-54 | Q10 is its draw rounded to 5 decimals and KAPS its draw unrounded |
| Candidates.SoilRules | create_param_table_csoil_from_candidates.py:46-54 | Q10 and KAPS are broadcast over [2.0] and [5.0e-9] |
| Candidates.CandidateSetValues | create_param_table_csoil_from_candidates.py:80-98 | a set holds exactly the ten keys; the vegetation keys reproduce the pinned candidate values and only Q10 and KAPS vary |
| Candidates.After | create_param_table_csoil_from_candidates.py:64-104 | the run's tables are the earlier ones, unchanged and first, then the rest of the run's; the rest's exception is the run's |
| Candidates.RunOf | create_param_table_csoil_from_candidates.py:64-112 | each iteration draws, writes and plots one table; a run without an exception writes a table per candidate, and no run writes more |
| Candidates.RunOfWritesPrefix | create_param_table_csoil_from_candidates.py:64-112 | the tables are written in order, each with its own defaults, and every plot but the last written table's succeeded; the run's exception is either the last written table's plot's, or that of the next table, which is not written |
| Candidates.RunOfPlotFails | create_param_table_csoil_from_candidates.py:104-112 | a table whose plot raises is still written, and the plot's exception ends the run there |
| Candidates.RunOfWithoutPlotFailures | create_param_table_csoil_from_candidates.py:64-104 | when no plot raises, the run completes exactly when every table is drawn, and otherwise stops at the first failing table, unwritten |
| Candidates.CandidateRuns | create_param_table_csoil_from_candidates.py:64-112 | the loop over candidates, with the plot drawn on a grid of a given number of rows (`Outcomes` pairs each candidate with its defaults, its table and its plot): a run without an exception writes every candidate's table |
| Candidates.RunOfCompletes | create_param_table_csoil_from_candidates.py:64-112 | the run ends without an exception exactly when every table can be drawn and plotted |
| Candidates.CandidateRunsAsWritten | create_param_table_csoil_from_candidates.py:104-112 | as written (a 3 × 2 grid for ten range keys), a run whose first candidate is drawable writes that candidate's table and then ends with the plot's IndexError |
| Candidates.CandidateRunsComplete | create_param_table_csoil_from_candidates.py:9-104 | with the plot on a grid with a cell per range key and N = 50 sets each, the run completes exactly when every candidate has non-empty pinned vectors and a two-slot LAI_MIN; each written table has 50 sets and its candidate's defaults; a failing candidate's exception ends the run, before its table |
| Candidates.BuildCandidateTable | create_param_table_csoil_from_candidates.py:67-98 | the script's statements build the candidate's table |
| Candidates.RunCandidates | create_param_table_csoil_from_candidates.py:64-112 | the loop over candidates (draw, write, plot) computes the run |
| TableWriter.JoinSnoc | helpers.py:245-247 | `sep.join` (`Join`): joining one more part appends the separator and the part |
| TableWriter.Member | helpers.py:246 | definition: the member line, the quoted key and its encoded vector; characterised by `FormatObjectSingle` |
| TableWriter.FormatObject | helpers.py:243-249 | definition of `_format_json_string`; characterised by `FormatObjectBraces`, `FormatObjectEmpty`, `FormatObjectSingle` and, key by key, `FormatObjectAppend` |
| TableWriter.FormatObjectBraces | helpers.py:244-248 | every object starts with "{\n" and ends with "\n}" |
| TableWriter.FormatObjectEmpty | helpers.py:244-248 | a set without keys gives an empty line between the braces |
| TableWriter.FormatObjectSingle | helpers.py:244-248 | a set with one key is that key's member line between the brace lines |
| TableWriter.FormatObjectAppend | helpers.py:244-248 | adding a new key to a set adds its member line last: the old object without its closing line, ",\n", the new member line and the closing line |
| TableWriter.ReplaceNewlines | helpers.py:258 | the replacement never shortens the text |
| TableWriter.ReplaceNewlinesAppend | helpers.py:258 | the replacement distributes over concatenation |
| TableWriter.DedentReplaceNewlines | helpers.py:258 | dedenting undoes the replacement: no line's text is lost |
| TableWriter.UnindentIndent | helpers.py:258 | unindenting an indented object gives the object back |
| TableWriter.NewlinesIndented | helpers.py:266 | every newline of an indented object is followed by four spaces |
| TableWriter.IndentAppendComma | helpers.py:257-258 | indenting after appending the comma is appending the comma after indenting |
| TableWriter.Layout | helpers.py:252-270 | definition: the file text for formatted objects, as the writer emits it piece by piece; characterised by `LayoutIsJoin` and `LayoutNoData` |
| TableWriter.TableText | helpers.py:252-270 | definition: the layout of the formatted defaults and sets; `CreateJsonFile` writes exactly it |
| TableWriter.PiecesSoFar | helpers.py:262-269 | the objects written so far are the join of the first ones, with a trailing separator |
| TableWriter.PiecesJoined | helpers.py:262-269 | all the objects written are their join, the last without a separator |
| TableWriter.LayoutIsJoin | helpers.py:252-270 | with at least one perturbed set the file is `[`, the indented objects (default first, `IndentAll`) joined by ",\n", and `]` |
| TableWriter.LayoutNoData | helpers.py:252-270 | with no perturbed set the default object keeps its trailing comma, followed by an empty line and `]` |
| TableWriter.JsonFile.constructor | helpers.py:253 | the opened file is empty |
| TableWriter.JsonFile.Write | helpers.py:259 | a write appends its text |
| TableWriter.WriteObject | helpers.py:263-269 | one iteration writes the indented object, with a comma and a newline unless it is the last |
| TableWriter.PiecesStep | helpers.py:262-269 | one more object extends what was written |
| TableWriter.WriteObjects | helpers.py:262-269 | the loop over the perturbed sets appends exactly the indented objects, separated by a comma and a newline |
| TableWriter.WriteTable | helpers.py:253-270 | the writes of `create_json_file` append exactly the layout of the default object and the perturbed objects, each formatted (`Formatted`) |
| TableWriter.CreateJsonFile | helpers.py:252-270 | a new file holding exactly the table text; the duplicate in create_param_table.py:89-107 is the same with the script's defaults |
| Plotting.PlotOutcome | helpers.py:283-313 | plotting n keys on a grid of one or more rows raises exactly when some key's cell (i // 2, i % 2) is missing, and then raises IndexError; a one-row grid, squeezed to one-dimensional axes, has no such cell |
| Plotting.PlotParamDistributions | helpers.py:281-313 | the loops over the five pages and the range keys raise exactly as `PlotOutcome` says |
| Plotting.GridHoldsSixKeys | helpers.py:283-313 | the 3 × 2 grid as written holds six keys: the plot raises exactly when there are more, at the seventh key's cell |
| Plotting.SqueezedGridRaises | helpers.py:283-313 | a one-row grid raises IndexError at the first key, and the corrected grid for one to four keys has two rows |
| Plotting.IntendedRows | helpers.py:283-313 | the corrected grid has at least two rows, so its axes stay two-dimensional, and holds all n keys; above two rows, no grid with one row fewer does |

## Left out

- `duplicate_job` and `setup_logging` (helpers.py): directory copies, `sed` through `subprocess`,
  logging handlers and the clock are outside a functional model.
- `plot_param_distributions` (helpers.py): only its subplot indexing is modelled (`Plotting`).
  The histogram values it collects, the figure layout and the PDF file are not. The values are
  read from keys every generated set holds, so they raise nothing.
- Plotting.PlotOutcome: a grid of zero rows is not modelled. `plt.subplots(0, 2)` raises ValueError
  before any key is drawn. The grid as written has 3 rows, and every corrected grid has at least 2.
- create_ensemble_jobs.py: it reads JSON files, patches namelists and logs. Its only logic is the
  pairing of record i with job id i, stated above as a note on `JobIds.GenerateEnsembleJobId`.
- File I/O: `open`, `json.load`, `json.dumps` and `str(float)`. The writer's file is a class holding
  the text written. The encoding of a value vector is a function parameter, and the number
  formatting is not modelled. The candidates are the list `json.load` returns, as dicts of vectors.
- `random.uniform`: the draws are an input, and `InRanges` states the [min, max] bound the real
  function guarantees.
- Floating point: values are exact reals. `round` is exact half-to-even rounding on reals, so
  binary floating-point representation errors (and what they do to ties) are not modelled.
- Module-level execution, output file names, `ensemble_id`, and the `print` calls.
- Unicode case mapping: `str.lower`, `str.upper` and `str.capitalize` are modelled on ASCII letters
  only (`JobIds.Upper`, `JobIds.Lower`). Other characters are kept as they are.
- Candidates.CandidateSpec: the ranges are built key by key and the first empty pinned vector
  raises. The model reports `IndexError` without saying which key raised, since the exception is
  the same for every key.
- RandomMode.InRanges: the draw bound is stated for ordered ranges, min before max, only.
  `random.uniform(a, b)` also accepts b < a and then draws from [b, a]. Every range in the scripts
  is ordered, so the reversed case is not modelled.

## Findings

| source | as written | input that shows it | evidently intended | confidence | as-written member | corrected member |
|---|---|---|---|---|---|---|
| create_param_table_csoil_from_candidates.py:110-112, helpers.py:283-313 | the plot draws the i-th range key at `axs[i // 2, i % 2]` of a 3 × 2 grid, and the candidates script has ten range keys | any candidate list whose first candidate is drawable: its table is written, and then the seventh key reaches `axs[3, 0]` and raises IndexError, ending the loop | a grid with a cell for every range key, so that every candidate's table is written and plotted | not executed | Candidates.CandidateRunsAsWritten | Candidates.CandidateRunsComplete |
| create_param_table_random.py:84, helpers.py:283-313 | the same grid for the random script's seven range keys | any run: the table is written, and then V_CRIT_ALPHA, the seventh key, reaches `axs[3, 0]` and raises IndexError | a grid with a cell for every range key | not executed | RandomMode.RandomScriptAsWritten | Plotting.SqueezedGridRaises | helpers.py:283-313 | a one-row grid raises IndexError at the first key, and the corrected grid for one to four keys has two rows |
| Plotting.IntendedRows |
| create_param_table_csoil.py:90, helpers.py:283-313 | the same grid for the soil-carbon script's eight range keys | any run: the table is written, and then the seventh key reaches `axs[3, 0]` and raises IndexError | a grid with a cell for every range key | not executed | Csoil.CsoilScriptAsWritten | Plotting.SqueezedGridRaises | helpers.py:283-313 | a one-row grid raises IndexError at the first key, and the corrected grid for one to four keys has two rows |
| Plotting.IntendedRows |

=== FILE: candidates.dfy ===
/**
 * create_param_table_csoil_from_candidates.py: for each candidate read from
 * a table of earlier ensemble members, defaults are taken from the
 * candidate, every vegetation range is pinned to the candidate's anchor,
 * and N sets are drawn with only Q10 and KAPS free.
 *
 * A candidate is the JSON object read for it, as a dict of numeric lists;
 * its "ensemble_id" only names the output files and is not part of this model.
 */
module Candidates {
  import opened Results
  import opened ParamSets
  import opened Rounding
  import opened Perturbation
  import opened RandomMode
  import opened Plotting

  /** The keys of the defaults, as the script lists them. */
  const DefaultKeys: seq<string> :=
    ["ALPHA", "G_AREA", "LAI_MIN", "NL0", "R_GROW", "TLOW", "TUPP", "V_CRIT_ALPHA", "Q10", "KAPS"]

  /** One of the vectors whose first value pins a range is empty, so reading `[0]` raises IndexError. */
  predicate PinnedVectorEmpty(d: Dict)
  {
    || |GetOrEmpty(d, "ALPHA")| == 0
    || |GetOrEmpty(d, "G_AREA")| == 0
    || |GetOrEmpty(d, "LAI_MIN")| == 0
    || |GetOrEmpty(d, "NL0")| == 0
    || |GetOrEmpty(d, "R_GROW")| == 0
    || |GetOrEmpty(d, "V_CRIT_ALPHA")| == 0
  }

  /** `ensemble.get(key, [])` for the candidate's own keys; Q10 and KAPS are fixed. */
  function DefaultFor(e: Dict, key: string): seq<real>
  {
    if key == "Q10" then [2.0]
    else if key == "KAPS" then [0.000000005]
    else GetOrEmpty(e, key)
  }

  /** The defaults for one candidate. */
  function CandidateDefaults(e: Dict): (d: Dict)
    ensures d.keys == DefaultKeys
    ensures forall k :: k in d.entries <==> k in DefaultKeys
  {
    Dict(DefaultKeys, map k | k in DefaultKeys :: DefaultFor(e, k))
  }

  /**
   * The range of each key: `[d[key][0], d[key][0]]` for the pinned keys,
   * `[0, 0]` for TLOW and TUPP, and the free Q10 and KAPS ranges.
   */
  function RangeFor(d: Dict, key: string): seq<real>
  {
    if key == "TLOW" || key == "TUPP" then [0.0, 0.0]
    else if key == "Q10" then [1.5, 2.5]
    else if key == "KAPS" then [0.0000000025, 0.0000000075]
    else if |GetOrEmpty(d, key)| == 0 then []
    else [GetOrEmpty(d, key)[0], GetOrEmpty(d, key)[0]]
  }

  /**
   * The ranges for one candidate, raising IndexError when one of the pinned
   * vectors is empty. TUPP is listed, after TLOW.
   */
  function CandidateSpec(d: Dict): (r: Result<Dict, Error>)
    ensures r.Err? <==> PinnedVectorEmpty(d)
    ensures r.Err? ==> r.error == IndexError
    ensures r.Ok? ==> r.value.keys == DefaultKeys && forall k :: k in r.value.entries <==> k in DefaultKeys
  {
    if PinnedVectorEmpty(d) then Err(IndexError)
    else Ok(Dict(DefaultKeys, map k | k in DefaultKeys :: RangeFor(d, k)))
  }

  /** The N sets drawn for one candidate. */
  function CandidateTable(e: Dict, draws: seq<seq<real>>): (r: Result<seq<Dict>, Error>)
    requires forall n :: 0 <= n < |draws| ==> |draws[n]| == |DefaultKeys|
    ensures r.Ok? ==> |r.value| == |draws|
  {
    var defaults := CandidateDefaults(e);
    match CandidateSpec(defaults)
    case Err(x) => Err(x)
    case Ok(spec) => RandomSets(CsoilCandidates, defaults, spec, draws)
  }

  lemma DefaultKeysDistinct()
    ensures forall i, j :: 0 <= i < j < |DefaultKeys| ==> DefaultKeys[i] != DefaultKeys[j]
  {
  }

  /** The defaults and the ranges built for a candidate are well-formed dicts over the same ten keys. */
  lemma CandidateDictsWellFormed(e: Dict)
    ensures WellFormed(CandidateDefaults(e))
    ensures CandidateSpec(CandidateDefaults(e)).Ok? ==> WellFormed(CandidateSpec(CandidateDefaults(e)).value)
  {
    DefaultKeysDistinct();
  }

  /** One set drawn for a candidate, with the draw vector `draw`. */
  function CandidateSet(e: Dict, draw: seq<real>): Result<Dict, Error>
    requires |draw| == |DefaultKeys|
  {
    var defaults := CandidateDefaults(e);
    match CandidateSpec(defaults)
    case Err(x) => Err(x)
    case Ok(spec) => DrawSet(CsoilCandidates, defaults, spec, DefaultKeys, draw)
  }

  /** The `n`-th set of a candidate's table is drawn with the `n`-th draw vector. */
  lemma CandidateTableElementwise(e: Dict, draws: seq<seq<real>>)
    requires forall n :: 0 <= n < |draws| ==> |draws[n]| == |DefaultKeys|
    ensures CandidateTable(e, draws).Ok? ==>
      forall n :: 0 <= n < |draws| ==> CandidateSet(e, draws[n]) == Ok(CandidateTable(e, draws).value[n])
  {
    var defaults := CandidateDefaults(e);
    var spec := CandidateSpec(defaults);
    if spec.Ok? {
      RandomSetsElementwise(CsoilCandidates, defaults, spec.value, draws);
    }
  }

  /** The defaults hold each listed key with the candidate's own vector, or the fixed Q10 and KAPS ones. */
  lemma DefaultsLookup(e: Dict, key: string)
    requires key in DefaultKeys
    ensures key in CandidateDefaults(e).entries && CandidateDefaults(e).entries[key] == DefaultFor(e, key)
  {
  }

  /** The pinned vectors of the defaults are the candidate's own. */
  lemma PinnedVectorsFromCandidate(e: Dict)
    ensures PinnedVectorEmpty(CandidateDefaults(e)) == PinnedVectorEmpty(e)
  {
    CandidateVector(e, "ALPHA");
    CandidateVector(e, "G_AREA");
    CandidateVector(e, "LAI_MIN");
    CandidateVector(e, "NL0");
    CandidateVector(e, "R_GROW");
    CandidateVector(e, "V_CRIT_ALPHA");
  }

  lemma CandidateVector(e: Dict, key: string)
    requires key in DefaultKeys && key != "Q10" && key != "KAPS"
    ensures GetOrEmpty(CandidateDefaults(e), key) == GetOrEmpty(e, key)
  {
    DefaultsLookup(e, key);
  }

  /** A key's step can only fail for LAI_MIN, whose tree override needs two slots. */
  lemma CandidateStepFails(e: Dict, j: int)
    requires CandidateSpec(CandidateDefaults(e)).Ok? && 0 <= j < |DefaultKeys|
    ensures StepFails(CsoilCandidates, CandidateDefaults(e), CandidateSpec(CandidateDefaults(e)).value, DefaultKeys[j]) <==>
      DefaultKeys[j] == "LAI_MIN" && |GetOrEmpty(e, "LAI_MIN")| < 2
  {
    var key := DefaultKeys[j];
    PinnedVectorsFromCandidate(e);
    DefaultsLookup(e, key);
    DefaultsLookup(e, "TUPP");
    CandidateSpecRanges(e, key);
    StepOverDefaults(e, CandidateDefaults(e), CandidateSpec(CandidateDefaults(e)).value, key);
  }

  /** The same, over any dicts that hold the candidate's defaults and a two-bound range for the key. */
  lemma StepOverDefaults(e: Dict, defaults: Dict, spec: Dict, key: string)
    requires !PinnedVectorEmpty(e) && key in DefaultKeys && |GetOrEmpty(spec, key)| == 2
    requires key in defaults.entries && defaults.entries[key] == DefaultFor(e, key)
    requires "TUPP" in defaults.entries && defaults.entries["TUPP"] == DefaultFor(e, "TUPP")
    ensures StepFails(CsoilCandidates, defaults, spec, key) <==>
      key == "LAI_MIN" && |GetOrEmpty(e, "LAI_MIN")| < 2
  {
  }

  /** Every key of a candidate's ranges is listed with a [min, max] pair. */
  lemma CandidateSpecRanges(e: Dict, key: string)
    requires CandidateSpec(CandidateDefaults(e)).Ok? && key in DefaultKeys
    ensures key in CandidateSpec(CandidateDefaults(e)).value.entries
    ensures GetOrEmpty(CandidateSpec(CandidateDefaults(e)).value, key) == RangeFor(CandidateDefaults(e), key)
    ensures |GetOrEmpty(CandidateSpec(CandidateDefaults(e)).value, key)| == 2
  {
    PinnedVectorsFromCandidate(e);
    RangeHasTwoBounds(CandidateDefaults(e), key);
  }

  lemma RangeHasTwoBounds(d: Dict, key: string)
    requires key in DefaultKeys && !PinnedVectorEmpty(d)
    ensures |RangeFor(d, key)| == 2
  {
  }

  /**
   * A candidate's table fails exactly when one of its pinned vectors is
   * empty (building the ranges), or when its LAI_MIN has fewer than two
   * slots and at least one set is drawn.
   */
  lemma CandidateTableFailsIff(e: Dict, draws: seq<seq<real>>)
    requires forall n :: 0 <= n < |draws| ==> |draws[n]| == |DefaultKeys|
    ensures CandidateTable(e, draws).Err? <==>
      PinnedVectorEmpty(e) || (|draws| > 0 && |GetOrEmpty(e, "LAI_MIN")| < 2)
  {
    var defaults := CandidateDefaults(e);
    var spec := CandidateSpec(defaults);
    PinnedVectorsFromCandidate(e);
    if spec.Ok? {
      RandomSetsElementwise(CsoilCandidates, defaults, spec.value, draws);
      forall n | 0 <= n < |draws|
        ensures DrawSet(CsoilCandidates, defaults, spec.value, DefaultKeys, draws[n]).Err? <==> |GetOrEmpty(e, "LAI_MIN")| < 2
      {
        CandidateSetFailsIff(e, draws[n]);
      }
      if |draws| > 0 {
        assert DrawSet(CsoilCandidates, defaults, spec.value, DefaultKeys, draws[0]).Err? <==> |GetOrEmpty(e, "LAI_MIN")| < 2;
      }
    }
  }

  /** Once the ranges are built, a set fails exactly when LAI_MIN has fewer than two slots, whatever the draw. */
  lemma CandidateSetFailsIff(e: Dict, draw: seq<real>)
    requires CandidateSpec(CandidateDefaults(e)).Ok? && |draw| == |DefaultKeys|
    ensures CandidateSet(e, draw).Err? <==> |GetOrEmpty(e, "LAI_MIN")| < 2
  {
    var defaults := CandidateDefaults(e);
    var spec := CandidateSpec(defaults).value;
    forall j | 0 <= j < |DefaultKeys|
      ensures StepFails(CsoilCandidates, defaults, spec, DefaultKeys[j]) <==>
        DefaultKeys[j] == "LAI_MIN" && |GetOrEmpty(e, "LAI_MIN")| < 2
    {
      CandidateStepFails(e, j);
    }
    FailsOnlyAtLaiMin(e, defaults, spec, draw);
  }

  /** The same, for any dicts whose steps fail only at LAI_MIN. */
  lemma FailsOnlyAtLaiMin(e: Dict, defaults: Dict, spec: Dict, draw: seq<real>)
    requires |draw| == |DefaultKeys|
    requires forall j :: 0 <= j < |DefaultKeys| ==>
      (StepFails(CsoilCandidates, defaults, spec, DefaultKeys[j]) <==>
        DefaultKeys[j] == "LAI_MIN" && |GetOrEmpty(e, "LAI_MIN")| < 2)
    ensures DrawSet(CsoilCandidates, defaults, spec, DefaultKeys, draw).Err? <==> |GetOrEmpty(e, "LAI_MIN")| < 2
  {
    DrawSetFailsIff(CsoilCandidates, defaults, spec, DefaultKeys, draw);
    assert DefaultKeys[2] == "LAI_MIN";
  }

  /** The vegetation keys, whose ranges are pinned to the candidate's first value. */
  predicate PinnedKey(key: string)
  {
    key in ["ALPHA", "G_AREA", "LAI_MIN", "NL0", "R_GROW", "V_CRIT_ALPHA"]
  }

  /**
   * What a vegetation vector comes out as, before rounding, once its draw
   * is pinned: LAI_MIN's slot 1 copies slot 0, R_GROW and V_CRIT_ALPHA take
   * slot 0 everywhere, and every other vector is kept as it is.
   */
  function PinnedVector(key: string, d: seq<real>): (r: seq<real>)
    requires key == "LAI_MIN" ==> |d| >= 2
    ensures |r| == |d|
  {
    if key == "LAI_MIN" then [d[0], d[0]] + d[2..]
    else if key == "R_GROW" || key == "V_CRIT_ALPHA" then seq(|d|, i requires 0 <= i < |d| => d[0])
    else d
  }

  /** The draw a pinned range forces: the vector's first value, or 0 for TLOW and TUPP. */
  function PinnedDraw(key: string, d: seq<real>): real
  {
    if key == "TLOW" || key == "TUPP" || |d| == 0 then 0.0 else d[0]
  }

  /** Each vegetation key's rule, applied with its pinned draw, yields the pinned vector. */
  lemma PinnedRuleEffect(key: string, d: seq<real>)
    requires PinnedKey(key) || key == "TLOW" || key == "TUPP"
    requires PinnedKey(key) ==> |d| > 0
    requires key == "LAI_MIN" ==> |d| >= 2
    ensures Raw(RuleFor(CsoilCandidates, key), d, PinnedDraw(key, d)) == Ok(PinnedVector(key, d))
  {
    var v := PinnedDraw(key, d);
    if key == "NL0" {
      AnchoredDrawReproduces(ProRata, d, v);
    } else if key == "TLOW" || key == "TUPP" {
      AnchoredDrawReproduces(AddDelta, d, v);
    } else if key == "R_GROW" || key == "V_CRIT_ALPHA" {
      assert Raw(Broadcast, d, v).value == PinnedVector(key, d);
    }
  }

  /**
   * The defaults and ranges a candidate's table is drawn with, as facts
   * about any pair of dicts: the generic lemmas below take these facts and
   * never look at how the dicts were built.
   */
  ghost predicate Describes(e: Dict, defaults: Dict, spec: Dict)
  {
    && WellFormed(spec) && spec.keys == DefaultKeys && !PinnedVectorEmpty(e)
    && forall j :: 0 <= j < |DefaultKeys| ==>
      && DefaultKeys[j] in defaults.entries && defaults.entries[DefaultKeys[j]] == DefaultFor(e, DefaultKeys[j])
      && DefaultKeys[j] in spec.entries && spec.entries[DefaultKeys[j]] == RangeFor(defaults, DefaultKeys[j])
  }

  /** Once the ranges are built, the candidate's own dicts are described so. */
  lemma CandidateDescribed(e: Dict)
    requires CandidateSpec(CandidateDefaults(e)).Ok?
    ensures Describes(e, CandidateDefaults(e), CandidateSpec(CandidateDefaults(e)).value)
  {
    CandidateDictsWellFormed(e);
    PinnedVectorsFromCandidate(e);
    forall j | 0 <= j < |DefaultKeys|
      ensures var spec := CandidateSpec(CandidateDefaults(e)).value;
        && DefaultKeys[j] in CandidateDefaults(e).entries
        && CandidateDefaults(e).entries[DefaultKeys[j]] == DefaultFor(e, DefaultKeys[j])
        && DefaultKeys[j] in spec.entries && spec.entries[DefaultKeys[j]] == RangeFor(CandidateDefaults(e), DefaultKeys[j])
    {
      CandidateSpecRanges(e, DefaultKeys[j]);
      DefaultsLookup(e, DefaultKeys[j]);
    }
  }

  /** The first eight draws fall in degenerate ranges, so each equals its key's pinned draw. */
  lemma DrawPinned(e: Dict, defaults: Dict, spec: Dict, draw: seq<real>, j: int)
    requires Describes(e, defaults, spec) && |draw| == |DefaultKeys| && InRanges(spec, draw)
    requires 0 <= j < 8
    ensures var key := DefaultKeys[j];
      && (PinnedKey(key) || key == "TLOW" || key == "TUPP")
      && (PinnedKey(key) ==> |GetOrEmpty(e, key)| > 0)
      && draw[j] == PinnedDraw(key, GetOrEmpty(e, key))
  {
    var key := DefaultKeys[j];
    assert spec.keys[j] == key;
    assert GetOrEmpty(defaults, key) == GetOrEmpty(e, key);
  }

  /** Q10 and KAPS are drawn from their free ranges. */
  lemma SoilDraws(e: Dict, defaults: Dict, spec: Dict, draw: seq<real>)
    requires Describes(e, defaults, spec) && |draw| == |DefaultKeys| && InRanges(spec, draw)
    ensures 1.5 <= draw[8] <= 2.5 && 0.0000000025 <= draw[9] <= 0.0000000075
  {
    assert spec.keys[8] == "Q10" && spec.keys[9] == "KAPS";
    assert GetOrEmpty(spec, "Q10") == [1.5, 2.5];
    assert GetOrEmpty(spec, "KAPS") == [0.0000000025, 0.0000000075];
  }

  /**
   * Every key of a candidate's set is perturbed by its own draw. TUPP is
   * written twice, first with TLOW's draw and then with its own, and the
   * second write is the one that stays.
   */
  lemma KeyValue(e: Dict, defaults: Dict, spec: Dict, draw: seq<real>, j: int)
    requires Describes(e, defaults, spec) && |draw| == |DefaultKeys|
    requires DrawSet(CsoilCandidates, defaults, spec, DefaultKeys, draw).Ok? && 0 <= j < |DefaultKeys|
    ensures var key := DefaultKeys[j];
      && Perturbed(CsoilCandidates, DefaultFor(e, key), key, draw[j]).Ok?
      && key in DrawSet(CsoilCandidates, defaults, spec, DefaultKeys, draw).value.entries
      && DrawSet(CsoilCandidates, defaults, spec, DefaultKeys, draw).value.entries[key]
        == Perturbed(CsoilCandidates, DefaultFor(e, key), key, draw[j]).value
  {
    var key := DefaultKeys[j];
    assert spec.keys[j] == key && defaults.entries[key] == DefaultFor(e, key);
    if key == "TUPP" {
      assert j == 6 && DefaultKeys[7] != "TLOW" && DefaultKeys[8] != "TLOW" && DefaultKeys[9] != "TLOW";
    }
    SpecKeyValue(CsoilCandidates, defaults, spec, draw, j);
  }

  /**
   * With in-range draws every vegetation key comes out as its pinned
   * vector rounded to 5 decimals: the candidate's own values, except that
   * LAI_MIN's slot 1 and every slot of R_GROW and V_CRIT_ALPHA after the
   * first become slot 0.
   */
  lemma VegetationValue(e: Dict, defaults: Dict, spec: Dict, draw: seq<real>, j: int)
    requires Describes(e, defaults, spec) && |draw| == |DefaultKeys| && InRanges(spec, draw)
    requires DrawSet(CsoilCandidates, defaults, spec, DefaultKeys, draw).Ok? && 0 <= j < 8
    ensures var key := DefaultKeys[j];
      && (key == "LAI_MIN" ==> |GetOrEmpty(e, key)| >= 2)
      && key in DrawSet(CsoilCandidates, defaults, spec, DefaultKeys, draw).value.entries
      && DrawSet(CsoilCandidates, defaults, spec, DefaultKeys, draw).value.entries[key]
        == ApplyAll(Decimals(5), PinnedVector(key, GetOrEmpty(e, key)))
  {
    var key := DefaultKeys[j];
    DrawPinned(e, defaults, spec, draw, j);
    KeyValue(e, defaults, spec, draw, j);
    assert DefaultFor(e, key) == GetOrEmpty(e, key);
    PinnedPerturbed(key, GetOrEmpty(e, key));
  }

  /** So perturb_list, with its 5-decimal rounding, returns the pinned vector rounded. */
  lemma PinnedPerturbed(key: string, d: seq<real>)
    requires PinnedKey(key) || key == "TLOW" || key == "TUPP"
    requires PinnedKey(key) ==> |d| > 0
    requires Perturbed(CsoilCandidates, d, key, PinnedDraw(key, d)).Ok?
    ensures key == "LAI_MIN" ==> |d| >= 2
    ensures Perturbed(CsoilCandidates, d, key, PinnedDraw(key, d)) == Ok(ApplyAll(Decimals(5), PinnedVector(key, d)))
  {
    PerturbedKeepsLength(CsoilCandidates, d, key, PinnedDraw(key, d));
    PinnedRuleEffect(key, d);
  }

  /** Q10 and KAPS take their draws: Q10 rounded to 5 decimals, KAPS as drawn. */
  lemma SoilValues(e: Dict, defaults: Dict, spec: Dict, draw: seq<real>)
    requires Describes(e, defaults, spec) && |draw| == |DefaultKeys|
    requires DrawSet(CsoilCandidates, defaults, spec, DefaultKeys, draw).Ok?
    ensures var r := DrawSet(CsoilCandidates, defaults, spec, DefaultKeys, draw).value;
      && "Q10" in r.entries && r.entries["Q10"] == [Round(draw[8], 5)]
      && "KAPS" in r.entries && r.entries["KAPS"] == [draw[9]]
  {
    KeyValue(e, defaults, spec, draw, 8);
    KeyValue(e, defaults, spec, draw, 9);
    SoilRules(draw[8], draw[9]);
  }

  /** Q10 and KAPS are broadcast over their one-slot defaults; Q10 is rounded to 5 decimals, KAPS not at all. */
  lemma SoilRules(q10: real, kaps: real)
    ensures Perturbed(CsoilCandidates, DefaultFor(Empty, "Q10"), "Q10", q10) == Ok([Round(q10, 5)])
    ensures Perturbed(CsoilCandidates, DefaultFor(Empty, "KAPS"), "KAPS", kaps) == Ok([kaps])
  {
    assert Raw(Broadcast, [2.0], q10).value == [q10];
    assert ApplyAll(Decimals(5), [q10]) == [Round(q10, 5)];
    assert Raw(Broadcast, [0.000000005], kaps).value == [kaps];
    assert ApplyAll(FullPrecision, [kaps]) == [kaps];
  }

  /**
   * A candidate's set, drawn within its ranges, holds exactly the ten keys;
   * the vegetation keys are the pinned vectors rounded to 5 decimals, and
   * only Q10 and KAPS vary with the draw.
   */
  lemma CandidateSetValues(e: Dict, draw: seq<real>, j: int)
    requires CandidateSpec(CandidateDefaults(e)).Ok? && |draw| == |DefaultKeys|
    requires InRanges(CandidateSpec(CandidateDefaults(e)).value, draw)
    requires CandidateSet(e, draw).Ok? && 0 <= j < 8
    ensures var r := CandidateSet(e, draw).value; var key := DefaultKeys[j];
      && (key == "LAI_MIN" ==> |GetOrEmpty(e, key)| >= 2)
      && (forall k :: k in r.entries <==> k in DefaultKeys)
      && key in r.entries && r.entries[key] == ApplyAll(Decimals(5), PinnedVector(key, GetOrEmpty(e, key)))
      && "Q10" in r.entries && r.entries["Q10"] == [Round(draw[8], 5)]
      && "KAPS" in r.entries && r.entries["KAPS"] == [draw[9]]
  {
    var defaults := CandidateDefaults(e);
    var spec := CandidateSpec(defaults).value;
    CandidateDescribed(e);
    VegetationValue(e, defaults, spec, draw, j);
    SoilValues(e, defaults, spec, draw);
    forall k ensures k in CandidateSet(e, draw).value.entries <==> k in DefaultKeys {
      DrawSetHoldsSpecKeys(CsoilCandidates, defaults, spec, draw, k);
    }
  }

  // ----- the loop over candidates -----

  /** Number of sets drawn per candidate. */
  const N: nat := 50

  /** A table the script writes out: the candidate's defaults and the sets drawn for it. */
  datatype Written = Written(defaults: Dict, sets: seq<Dict>)

  /**
   * What a run of the script leaves behind: the tables written, in the
   * order of the candidates, and the exception that stopped it, if any.
   * A failing candidate stops the loop; the tables before it stay written.
   */
  datatype Run = Run(written: seq<Written>, failure: Option<Error>)

  /** One draw vector per set and one value per key, for every candidate. */
  predicate DrawShapes(draws: seq<seq<seq<real>>>)
  {
    forall c, n :: 0 <= c < |draws| && 0 <= n < |draws[c]| ==> |draws[c][n]| == |DefaultKeys|
  }

  /** The run after `done` was written by the earlier candidates. */
  function After(done: seq<Written>, rest: Run): (r: Run)
    ensures r.failure == rest.failure && |r.written| == |done| + |rest.written|
    ensures r.written[..|done|] == done && r.written[|done|..] == rest.written
  {
    Run(done + rest.written, rest.failure)
  }

  /**
   * A candidate's defaults, the outcome of drawing its table and the
   * exception the plot raises, if any, once that table is written.
   */
  datatype Outcome = Outcome(defaults: Dict, table: Result<seq<Dict>, Error>, plot: Option<Error>)

  /**
   * The outcomes in order: each table is written, then plotted, until the
   * first exception, which ends the run. A table that fails is not written;
   * a plot that fails comes after its table was written.
   */
  function RunOf(outcomes: seq<Outcome>): (r: Run)
    ensures r.failure.None? ==> |r.written| == |outcomes|
    ensures |r.written| <= |outcomes|
  {
    if outcomes == [] then Run([], None)
    else match outcomes[0].table
      case Err(x) => Run([], Some(x))
      case Ok(t) =>
        if outcomes[0].plot.Some? then Run([Written(outcomes[0].defaults, t)], outcomes[0].plot)
        else After([Written(outcomes[0].defaults, t)], RunOf(outcomes[1..]))
  }

  lemma AfterNothing(rest: Run)
    ensures After([], rest) == rest
  {
    assert [] + rest.written == rest.written;
  }

  lemma AfterTwice(a: seq<Written>, b: seq<Written>, rest: Run)
    ensures After(a, After(b, rest)) == After(a + b, rest)
  {
    assert a + (b + rest.written) == (a + b) + rest.written;
  }

  /**
   * The run writes the tables in order, each with its own defaults, and
   * plots each one. The first exception ends it: either the last written
   * table's plot raised it, or the next table raised it and was not written.
   */
  lemma {:induction false} RunOfWritesPrefix(outcomes: seq<Outcome>)
    ensures var r := RunOf(outcomes);
      && (forall c :: 0 <= c < |r.written| ==>
           outcomes[c].table.Ok? && r.written[c] == Written(outcomes[c].defaults, outcomes[c].table.value))
      && (forall c :: 0 <= c < |r.written| - 1 ==> outcomes[c].plot.None?)
      && (r.failure.None? ==> forall c :: 0 <= c < |outcomes| ==> outcomes[c].plot.None?)
      && (r.failure.Some? ==>
           if |r.written| > 0 && outcomes[|r.written| - 1].plot.Some?
           then r.failure == outcomes[|r.written| - 1].plot
           else |r.written| < |outcomes| && outcomes[|r.written|].table == Err(r.failure.value))
  {
    if outcomes != [] && outcomes[0].table.Ok? && outcomes[0].plot.None? {
      RunOfWritesPrefix(outcomes[1..]);
    }
  }

  /** The outcome for every candidate, each with its own draws, plotted on a grid with `rows` rows. */
  function Outcomes(candidates: seq<Dict>, draws: seq<seq<seq<real>>>, rows: nat): (r: seq<Outcome>)
    requires |draws| == |candidates| && DrawShapes(draws)
    requires rows >= 1
    ensures |r| == |candidates|
    ensures forall c :: 0 <= c < |candidates| ==>
      r[c] == Outcome(CandidateDefaults(candidates[c]), CandidateTable(candidates[c], draws[c]), PlotOutcome(rows, |DefaultKeys|))
  {
    seq(|candidates|, c requires 0 <= c < |candidates| =>
      Outcome(CandidateDefaults(candidates[c]), CandidateTable(candidates[c], draws[c]), PlotOutcome(rows, |DefaultKeys|)))
  }

  /** The script's run over the candidates, one candidate at a time, plotting on a grid with `rows` rows. */
  function CandidateRuns(candidates: seq<Dict>, draws: seq<seq<seq<real>>>, rows: nat): (r: Run)
    requires |draws| == |candidates| && DrawShapes(draws)
    requires rows >= 1
    ensures r.failure.None? ==> |r.written| == |candidates|
    ensures |r.written| <= |candidates|
  {
    RunOf(Outcomes(candidates, draws, rows))
  }

  /** The run ends without an exception exactly when every table can be drawn and plotted. */
  lemma RunOfCompletes(outcomes: seq<Outcome>)
    ensures RunOf(outcomes).failure.None? <==>
      forall c :: 0 <= c < |outcomes| ==> outcomes[c].table.Ok? && outcomes[c].plot.None?
  {
    RunOfWritesPrefix(outcomes);
  }

  /** A table that is drawn and then fails to plot is the only one written, and its plot's exception ends the run. */
  lemma RunOfPlotFails(outcomes: seq<Outcome>)
    requires outcomes != [] && outcomes[0].table.Ok? && outcomes[0].plot.Some?
    ensures RunOf(outcomes) == Run([Written(outcomes[0].defaults, outcomes[0].table.value)], outcomes[0].plot)
  {
  }

  /** When no plot raises, the run stops only at a table that raises, which is not written. */
  lemma RunOfWithoutPlotFailures(outcomes: seq<Outcome>)
    requires forall c :: 0 <= c < |outcomes| ==> outcomes[c].plot.None?
    ensures var r := RunOf(outcomes);
      && (r.failure.None? <==> forall c :: 0 <= c < |outcomes| ==> outcomes[c].table.Ok?)
      && (forall c :: 0 <= c < |r.written| ==>
           outcomes[c].table.Ok? && r.written[c] == Written(outcomes[c].defaults, outcomes[c].table.value))
      && (r.failure.Some? ==> |r.written| < |outcomes| && outcomes[|r.written|].table == Err(r.failure.value))
  {
    RunOfWritesPrefix(outcomes);
    RunOfCompletes(outcomes);
  }

  /** A candidate whose table can be drawn: its pinned vectors are non-empty and LAI_MIN has both tree slots. */
  predicate Drawable(e: Dict)
  {
    !PinnedVectorEmpty(e) && |GetOrEmpty(e, "LAI_MIN")| >= 2
  }

  /**
   * As written, the plot's grid has no cell for the seventh of the ten
   * range keys: the first drawable candidate's table is written, and then
   * its plot raises IndexError and ends the run.
   */
  lemma CandidateRunsAsWritten(candidates: seq<Dict>, draws: seq<seq<seq<real>>>)
    requires |draws| == |candidates| && DrawShapes(draws)
    requires candidates != [] && Drawable(candidates[0])
    ensures var r := CandidateRuns(candidates, draws, GridRows);
      && r.failure == Some(IndexError)
      && |r.written| == 1
      && r.written[0].defaults == CandidateDefaults(candidates[0])
      && CandidateTable(candidates[0], draws[0]) == Ok(r.written[0].sets)
  {
    var outcomes := Outcomes(candidates, draws, GridRows);
    assert |DefaultKeys| == 10;
    GridHoldsSixKeys(|DefaultKeys|);
    CandidateTableFailsIff(candidates[0], draws[0]);
    assert outcomes[0] == Outcome(CandidateDefaults(candidates[0]), CandidateTable(candidates[0], draws[0]), Some(IndexError));
    RunOfPlotFails(outcomes);
  }

  /**
   * On a grid with a cell for every range key, with N = 50 sets per
   * candidate, the run completes exactly when every candidate is drawable.
   * It writes each candidate's table, with that candidate's defaults, in
   * order; a failing candidate's exception ends the run after the tables of
   * the candidates before it.
   */
  lemma CandidateRunsComplete(candidates: seq<Dict>, draws: seq<seq<seq<real>>>)
    requires |draws| == |candidates| && DrawShapes(draws)
    requires forall c :: 0 <= c < |draws| ==> |draws[c]| == N
    ensures var r := CandidateRuns(candidates, draws, IntendedRows(|DefaultKeys|));
      && (r.failure.None? <==> forall c :: 0 <= c < |candidates| ==> Drawable(candidates[c]))
      && (forall c :: 0 <= c < |r.written| ==>
           && r.written[c].defaults == CandidateDefaults(candidates[c])
           && CandidateTable(candidates[c], draws[c]) == Ok(r.written[c].sets)
           && |r.written[c].sets| == N)
      && (r.failure.Some? ==> |r.written| < |candidates| && CandidateTable(candidates[|r.written|], draws[|r.written|]) == Err(r.failure.value))
  {
    var rows := IntendedRows(|DefaultKeys|);
    assert rows >= 1;
    var outcomes := Outcomes(candidates, draws, rows);
    assert PlotOutcome(rows, |DefaultKeys|) == None;
    RunOfWithoutPlotFailures(outcomes);
    forall c | 0 <= c < |candidates|
      ensures outcomes[c].table.Ok? <==> Drawable(candidates[c])
    {
      CandidateTableFailsIff(candidates[c], draws[c]);
    }
  }

  /** The candidate's table, built as the script builds it: defaults, ranges, then the generator's loops. */
  method BuildCandidateTable(e: Dict, draws: seq<seq<real>>) returns (r: Result<seq<Dict>, Error>)
    requires forall n :: 0 <= n < |draws| ==> |draws[n]| == |DefaultKeys|
    ensures r == CandidateTable(e, draws)
  {
    var defaults := CandidateDefaults(e);
    var spec := CandidateSpec(defaults);
    if spec.Err? {
      return Err(spec.error);
    }
    r := GenerateRandomPerturbedParamsLoop(CsoilCandidates, defaults, spec.value, draws);
  }

  /** The script's loop over the candidates: draw, write and plot one table per candidate, until one raises. */
  method RunCandidates(candidates: seq<Dict>, draws: seq<seq<seq<real>>>, rows: nat) returns (r: Run)
    requires |draws| == |candidates| && DrawShapes(draws)
    requires rows >= 1
    ensures r == CandidateRuns(candidates, draws, rows)
  {
    ghost var outcomes := Outcomes(candidates, draws, rows);
    var written: seq<Written> := [];
    var c := 0;
    assert outcomes[c..] == outcomes;
    AfterNothing(RunOf(outcomes));
    while c < |candidates|
      invariant 0 <= c <= |candidates|
      invariant RunOf(outcomes) == After(written, RunOf(outcomes[c..]))
    {
      assert outcomes[c..][1..] == outcomes[c + 1..];
      var table := BuildCandidateTable(candidates[c], draws[c]);
      if table.Err? {
        assert written + [] == written;
        return Run(written, Some(table.error));
      }
      var w := Written(CandidateDefaults(candidates[c]), table.value);
      // the range dict holds the ten default keys, in order
      var plot := PlotParamDistributions(rows, DefaultKeys);
      if plot.Some? {
        return Run(written + [w], plot);
      }
      AfterTwice(written, [w], RunOf(outcomes[c + 1..]));
      written := written + [w];
      c := c + 1;
    }
    assert outcomes[c..] == [] && written + [] == written;
    return Run(written, None);
  }
}

=== FILE: csoil.dfy ===
/**
 * create_param_table_csoil.py: the random generator around the best member
 * of ensemble xqab. Every range except Q10's and KAPS's is degenerate,
 * `[x, x]` with x the default's anchor, so only the soil-carbon keys vary.
 */
module Csoil {
  import opened Results
  import opened ParamSets
  import opened Rounding
  import opened Perturbation
  import opened RandomMode
  import opened Plotting

  /** The defaults: member xQabn of ensemble xqab. */
  const CsoilDefaults: Dict := Dict(
    ["F0", "LAI_MIN", "NL0", "R_GROW", "TLOW", "TUPP", "V_CRIT_ALPHA", "Q10", "KAPS"],
    map[
      "F0" := [0.847, 0.847, 0.872, 0.772, 0.872],
      "LAI_MIN" := [3.801, 3.801, 1.0, 1.0, 1.0],
      "NL0" := [0.054, 0.034, 0.064, 0.034, 0.034],
      "R_GROW" := [0.169, 0.169, 0.169, 0.169, 0.169],
      "TLOW" := [3.703, -1.297, 3.703, 16.703, 3.703],
      "TUPP" := [39.703, 34.703, 39.703, 48.703, 39.703],
      "V_CRIT_ALPHA" := [0.765],
      "Q10" := [2.0],
      "KAPS" := [0.000000005]
    ])

  /** The ranges: degenerate for the vegetation keys, a real interval for Q10 and KAPS. */
  const CsoilSpec: Dict := Dict(
    ["F0", "LAI_MIN", "NL0", "R_GROW", "TLOW", "V_CRIT_ALPHA", "Q10", "KAPS"],
    map[
      "F0" := [0.847, 0.847],
      "LAI_MIN" := [3.801, 3.801],
      "NL0" := [0.054, 0.054],
      "R_GROW" := [0.169, 0.169],
      "TLOW" := [0.0, 0.0],
      "V_CRIT_ALPHA" := [0.765, 0.765],
      "Q10" := [1.5, 2.5],
      "KAPS" := [0.0000000025, 0.0000000075]
    ])

  lemma CsoilSpecWellFormed()
    ensures WellFormed(CsoilSpec) && "TUPP" !in CsoilSpec.entries
  {
  }

  /** Every key of the specification can be drawn and assigned, whatever the draw. */
  lemma CsoilKeySucceeds(key: string)
    requires key in CsoilSpec.keys
    ensures !StepFails(CsoilTable, CsoilDefaults, CsoilSpec, key)
  {
    var d := CsoilDefaults.entries;
    assert key in CsoilSpec.entries && |CsoilSpec.entries[key]| == 2;
    assert "TUPP" in d;
    assert key in d && |d[key]| >= 1;
    assert |d[key]| == 1 ==> RuleFor(CsoilTable, key) == Broadcast;
  }

  /**
   * The soil-carbon script as written: the generator yields its N sets and
   * the table is written, but the plot's grid has no cell for the seventh of
   * the eight range keys, so the plot then raises IndexError.
   */
  lemma CsoilScriptAsWritten(draws: seq<seq<real>>)
    requires forall n :: 0 <= n < |draws| ==> |draws[n]| == |CsoilSpec.keys|
    ensures RandomSets(CsoilTable, CsoilDefaults, CsoilSpec, draws).Ok?
    ensures |CsoilSpec.keys| == 8 && PlotOutcome(GridRows, |CsoilSpec.keys|) == Some(IndexError)
  {
    CsoilGeneratorNeverFails(draws);
    GridHoldsSixKeys(|CsoilSpec.keys|);
  }

  /** The generator call never raises: it yields one set per draw vector, N of them. */
  lemma CsoilGeneratorNeverFails(draws: seq<seq<real>>)
    requires forall n :: 0 <= n < |draws| ==> |draws[n]| == |CsoilSpec.keys|
    ensures RandomSets(CsoilTable, CsoilDefaults, CsoilSpec, draws).Ok?
    ensures |RandomSets(CsoilTable, CsoilDefaults, CsoilSpec, draws).value| == |draws|
  {
    var keys := CsoilSpec.keys;
    forall n | 0 <= n < |draws|
      ensures DrawSet(CsoilTable, CsoilDefaults, CsoilSpec, keys, draws[n]).Ok?
    {
      DrawSetFailsIff(CsoilTable, CsoilDefaults, CsoilSpec, keys, draws[n]);
      forall j | 0 <= j < |keys|
        ensures !StepFails(CsoilTable, CsoilDefaults, CsoilSpec, keys[j])
      {
        CsoilKeySucceeds(keys[j]);
      }
    }
    RandomSetsElementwise(CsoilTable, CsoilDefaults, CsoilSpec, draws);
  }

  /** One set of the table, for a draw vector. */
  function CsoilSet(draw: seq<real>): (r: Dict)
    requires |draw| == |CsoilSpec.keys|
    ensures DrawSet(CsoilTable, CsoilDefaults, CsoilSpec, CsoilSpec.keys, draw) == Ok(r)
  {
    CsoilGeneratorNeverFails([draw]);
    RandomSetsElementwise(CsoilTable, CsoilDefaults, CsoilSpec, [draw]);
    DrawSet(CsoilTable, CsoilDefaults, CsoilSpec, CsoilSpec.keys, draw).value
  }

  /** The degenerate ranges pin the vegetation keys' draws to their defaults' anchors. */
  lemma CsoilDrawsPinned(draw: seq<real>)
    requires |draw| == |CsoilSpec.keys| && InRanges(CsoilSpec, draw)
    ensures draw[..6] == [0.847, 3.801, 0.054, 0.169, 0.0, 0.765]
    ensures 1.5 <= draw[6] <= 2.5 && 0.0000000025 <= draw[7] <= 0.0000000075
  {
    var keys := CsoilSpec.keys;
    assert keys == ["F0", "LAI_MIN", "NL0", "R_GROW", "TLOW", "V_CRIT_ALPHA", "Q10", "KAPS"];
    assert forall j :: 0 <= j < 8 ==> GetOrEmpty(CsoilSpec, keys[j])[0] <= draw[j] <= GetOrEmpty(CsoilSpec, keys[j])[1];
  }

  /**
   * So F0, LAI_MIN, NL0, R_GROW, TLOW and V_CRIT_ALPHA come out as their
   * defaults, rounded to 3 decimals.
   */
  lemma CsoilVegetationKeysReproduced(draw: seq<real>, j: int)
    requires |draw| == |CsoilSpec.keys| && InRanges(CsoilSpec, draw)
    requires 0 <= j < 6
    ensures var key := CsoilSpec.keys[j];
      && key in CsoilSet(draw).entries
      && CsoilSet(draw).entries[key] == ApplyAll(Decimals(3), CsoilDefaults.entries[key])
  {
    var r := CsoilSet(draw);
    CsoilDrawsPinned(draw);
    assert draw[j] == [0.847, 3.801, 0.054, 0.169, 0.0, 0.765][j];
    CsoilVegetationAnchored(j, draw[j]);
    CsoilSpecWellFormed();
    AnchoredDrawReproducesDefault(CsoilTable, CsoilDefaults, CsoilSpec, draw, j);
  }

  lemma CsoilVegetationAnchored(j: int, v: real)
    requires 0 <= j < 6 && v == [0.847, 3.801, 0.054, 0.169, 0.0, 0.765][j]
    ensures var key := CsoilSpec.keys[j];
      key != "TUPP" && key in CsoilDefaults.entries && Anchored(RuleFor(CsoilTable, key), CsoilDefaults.entries[key], v)
  {
    var d := CsoilDefaults.entries;
    if j == 0 {
      assert Anchored(ProRata, d["F0"], v);
    } else if j == 1 {
      assert Anchored(OverrideTrees, d["LAI_MIN"], v);
    } else if j == 2 {
      assert Anchored(ProRata, d["NL0"], v);
    } else if j == 3 {
      assert Anchored(Broadcast, d["R_GROW"], v);
    } else if j == 5 {
      assert Anchored(Broadcast, d["V_CRIT_ALPHA"], v);
    }
  }

  /** TUPP moves with TLOW's draw, pinned to 0, so it too is its default rounded to 3 decimals. */
  lemma CsoilTuppReproduced(draw: seq<real>)
    requires |draw| == |CsoilSpec.keys| && InRanges(CsoilSpec, draw)
    ensures "TUPP" in CsoilSet(draw).entries
    ensures CsoilSet(draw).entries["TUPP"] == ApplyAll(Decimals(3), CsoilDefaults.entries["TUPP"])
  {
    var r := CsoilSet(draw);
    CsoilDrawsPinned(draw);
    assert draw[4] == [0.847, 3.801, 0.054, 0.169, 0.0, 0.765][4];
    CsoilSpecWellFormed();
    assert CsoilSpec.keys[4] == "TLOW";
    TuppFollowsTlow(CsoilTable, CsoilDefaults, CsoilSpec, draw, 4);
    CsoilTuppRule();
  }

  lemma CsoilTuppRule()
    ensures Perturbed(CsoilTable, CsoilDefaults.entries["TUPP"], "TUPP", 0.0) == Ok(ApplyAll(Decimals(3), CsoilDefaults.entries["TUPP"]))
  {
    AnchoredDrawReproduces(AddDelta, CsoilDefaults.entries["TUPP"], 0.0);
  }

  /** Q10 and KAPS are broadcast over their one-slot defaults; Q10 is rounded to 3 decimals, KAPS not at all. */
  lemma CsoilSoilRules(q10: real, kaps: real)
    ensures Perturbed(CsoilTable, CsoilDefaults.entries["Q10"], "Q10", q10) == Ok([Round(q10, 3)])
    ensures Perturbed(CsoilTable, CsoilDefaults.entries["KAPS"], "KAPS", kaps) == Ok([kaps])
  {
    assert Raw(Broadcast, [2.0], q10).value == [q10];
    assert ApplyAll(Decimals(3), [q10]) == [Round(q10, 3)];
    assert Raw(Broadcast, [0.000000005], kaps).value == [kaps];
    assert ApplyAll(FullPrecision, [kaps]) == [kaps];
  }

  /** So Q10 and KAPS take their own draws, the only keys that vary from set to set. */
  lemma CsoilSoilKeysVary(draw: seq<real>)
    requires |draw| == |CsoilSpec.keys|
    ensures "Q10" in CsoilSet(draw).entries && CsoilSet(draw).entries["Q10"] == [Round(draw[6], 3)]
    ensures "KAPS" in CsoilSet(draw).entries && CsoilSet(draw).entries["KAPS"] == [draw[7]]
  {
    var r := CsoilSet(draw);
    CsoilSpecWellFormed();
    assert CsoilSpec.keys[6] == "Q10" && CsoilSpec.keys[7] == "KAPS";
    SpecKeyValue(CsoilTable, CsoilDefaults, CsoilSpec, draw, 6);
    SpecKeyValue(CsoilTable, CsoilDefaults, CsoilSpec, draw, 7);
    CsoilSoilRules(draw[6], draw[7]);
  }
}

=== FILE: enumerated.dfy ===
/**
 * Enumerated mode (create_param_table.py, create_param_table_single.py):
 * for each key of the specification, in order, and for each value listed
 * for it, one parameter set equal to the defaults except at that key (and
 * at TUPP when the key is TLOW).
 */
module Enumerated {
  import opened Results
  import opened ParamSets
  import opened Perturbation
  import opened Plotting

  /** perturb_params, one iteration: `defaults.copy()` with `key` perturbed to `v`. */
  function PerturbedSet(s: Script, defaults: Dict, key: string, v: real): Result<Dict, Error>
  {
    AssignPerturbed(s, defaults, defaults, key, v)
  }

  /** The sets for the values `values` of one key, in list order; the first exception wins. */
  function SetsForValues(s: Script, defaults: Dict, key: string, values: seq<real>): (r: Result<seq<Dict>, Error>)
    decreases |values|
    ensures r.Ok? ==> |r.value| == |values|
  {
    if values == [] then Ok([])
    else match PerturbedSet(s, defaults, key, values[0])
      case Err(e) => Err(e)
      case Ok(first) => Extend([first], SetsForValues(s, defaults, key, values[1..]))
  }

  /**
   * The `m`-th set is the defaults perturbed to the `m`-th value, and the
   * whole fails exactly when one of the values fails.
   */
  lemma {:induction false} SetsForValuesElementwise(s: Script, defaults: Dict, key: string, values: seq<real>)
    ensures var r := SetsForValues(s, defaults, key, values);
      && (r.Ok? ==> forall m :: 0 <= m < |values| ==> PerturbedSet(s, defaults, key, values[m]) == Ok(r.value[m]))
      && (r.Err? <==> exists m :: 0 <= m < |values| && PerturbedSet(s, defaults, key, values[m]).Err?)
  {
    if values != [] {
      SetsForValuesElementwise(s, defaults, key, values[1..]);
      assert forall m :: 1 <= m < |values| ==> values[m] == values[1..][m - 1];
    }
  }

  /** perturb_params(key, defaults, new_params) */
  function PerturbParams(s: Script, key: string, defaults: Dict, spec: Dict): (r: Result<seq<Dict>, Error>)
    ensures key !in spec.entries ==> r == Err(KeyError(key))
    ensures r.Ok? ==> key in spec.entries && |r.value| == |spec.entries[key]|
  {
    if key !in spec.entries then Err(KeyError(key))
    else SetsForValues(s, defaults, key, spec.entries[key])
  }

  /** How many values the specification lists for `keys` altogether. */
  function TotalValues(spec: Dict, keys: seq<string>): nat
  {
    if keys == [] then 0 else |GetOrEmpty(spec, keys[0])| + TotalValues(spec, keys[1..])
  }

  /** generate_perturbed_params over the keys `keys`: their groups of sets, concatenated in order. */
  function Enumerate(s: Script, defaults: Dict, spec: Dict, keys: seq<string>): (r: Result<seq<Dict>, Error>)
    decreases |keys|
    ensures r.Ok? ==> |r.value| == TotalValues(spec, keys)
  {
    if keys == [] then Ok([])
    else match PerturbParams(s, keys[0], defaults, spec)
      case Err(e) => Err(e)
      case Ok(group) => Extend(group, Enumerate(s, defaults, spec, keys[1..]))
  }

  /** generate_perturbed_params(default_params, new_params) */
  function GeneratePerturbedParams(s: Script, defaults: Dict, spec: Dict): (r: Result<seq<Dict>, Error>)
    ensures r.Ok? ==> |r.value| == TotalValues(spec, spec.keys)
  {
    Enumerate(s, defaults, spec, spec.keys)
  }

  /** perturb_params as a loop that appends one fresh copy of the defaults per listed value. */
  method PerturbParamsLoop(s: Script, key: string, defaults: Dict, spec: Dict)
    returns (r: Result<seq<Dict>, Error>)
    ensures r == PerturbParams(s, key, defaults, spec)
  {
    if key !in spec.entries {
      return Err(KeyError(key));
    }
    var values := spec.entries[key];
    var sets: seq<Dict> := [];
    var idx := 0;
    assert values[idx..] == values;
    ExtendNothing(SetsForValues(s, defaults, key, values));
    while idx < |values|
      invariant 0 <= idx <= |values|
      invariant SetsForValues(s, defaults, key, values) == Extend(sets, SetsForValues(s, defaults, key, values[idx..]))
    {
      assert values[idx..][1..] == values[idx + 1..];
      var perturbed := AssignPerturbedInPlace(s, defaults, defaults, key, values[idx]);
      if perturbed.Err? {
        return Err(perturbed.error);
      }
      ExtendTwice(sets, [perturbed.value], SetsForValues(s, defaults, key, values[idx + 1..]));
      sets := sets + [perturbed.value];
      idx := idx + 1;
    }
    assert values[idx..] == [];
    assert sets + [] == sets;
    return Ok(sets);
  }

  /** generate_perturbed_params as a loop that extends the output by each key's group. */
  method GeneratePerturbedParamsLoop(s: Script, defaults: Dict, spec: Dict)
    returns (r: Result<seq<Dict>, Error>)
    ensures r == GeneratePerturbedParams(s, defaults, spec)
  {
    var sets: seq<Dict> := [];
    var i := 0;
    assert spec.keys[i..] == spec.keys;
    ExtendNothing(Enumerate(s, defaults, spec, spec.keys));
    while i < |spec.keys|
      invariant 0 <= i <= |spec.keys|
      invariant Enumerate(s, defaults, spec, spec.keys) == Extend(sets, Enumerate(s, defaults, spec, spec.keys[i..]))
    {
      assert spec.keys[i..][1..] == spec.keys[i + 1..];
      var group := PerturbParamsLoop(s, spec.keys[i], defaults, spec);
      if group.Err? {
        return Err(group.error);
      }
      ExtendTwice(sets, group.value, Enumerate(s, defaults, spec, spec.keys[i + 1..]));
      sets := sets + group.value;
      i := i + 1;
    }
    assert sets + [] == sets;
    return Ok(sets);
  }

  /**
   * One emitted set: the defaults' keys in the defaults' order, the new
   * vector at `key`, TUPP shifted by the same value when `key` is TLOW,
   * and every other key at its default.
   */
  lemma PerturbedSetChangesOnlyKey(s: Script, defaults: Dict, key: string, v: real)
    requires PerturbedSet(s, defaults, key, v).Ok?
    ensures var p := PerturbedSet(s, defaults, key, v).value;
      && p.keys == defaults.keys
      && p.entries.Keys == defaults.entries.Keys
      && p.entries[key] == Perturbed(s, defaults.entries[key], key, v).value
      && (key == "TLOW" ==> p.entries["TUPP"] == Perturbed(s, defaults.entries["TUPP"], "TUPP", v).value)
      && forall k :: k in defaults.entries && k != key && !(key == "TLOW" && k == "TUPP") ==>
           p.entries[k] == defaults.entries[k]
  {
    AssignPerturbedKeys(s, defaults, defaults, key, v);
  }

  /**
   * The output is grouped by key in specification order: the `j`-th key's
   * group starts after the values of the keys before it.
   */
  lemma {:induction false} EnumerateGroupsByKey(s: Script, defaults: Dict, spec: Dict, keys: seq<string>, j: int, m: int)
    requires Enumerate(s, defaults, spec, keys).Ok?
    requires 0 <= j < |keys| && 0 <= m < |GetOrEmpty(spec, keys[j])|
    ensures PerturbParams(s, keys[j], defaults, spec).Ok?
    ensures TotalValues(spec, keys[..j]) + m < |Enumerate(s, defaults, spec, keys).value|
    ensures Enumerate(s, defaults, spec, keys).value[TotalValues(spec, keys[..j]) + m]
      == PerturbParams(s, keys[j], defaults, spec).value[m]
  {
    var first := PerturbParams(s, keys[0], defaults, spec);
    var rest := Enumerate(s, defaults, spec, keys[1..]);
    EnumerateHead(s, defaults, spec, keys);
    if j == 0 {
      assert keys[..0] == [];
    } else {
      assert keys[1..][j - 1] == keys[j];
      EnumerateGroupsByKey(s, defaults, spec, keys[1..], j - 1, m);
      assert keys[1..][..j - 1] == keys[1..j];
      TotalValuesSplit(spec, keys, j);
      var q := TotalValues(spec, keys[1..j]) + m;
      assert (first.value + rest.value)[|first.value| + q] == rest.value[q];
    }
  }

  /** A successful table is the first key's group followed by the rest's. */
  lemma EnumerateHead(s: Script, defaults: Dict, spec: Dict, keys: seq<string>)
    requires keys != [] && Enumerate(s, defaults, spec, keys).Ok?
    ensures var first := PerturbParams(s, keys[0], defaults, spec);
      var rest := Enumerate(s, defaults, spec, keys[1..]);
      && first.Ok? && rest.Ok?
      && |first.value| == |GetOrEmpty(spec, keys[0])|
      && Enumerate(s, defaults, spec, keys).value == first.value + rest.value
  {
  }

  lemma TotalValuesSplit(spec: Dict, keys: seq<string>, j: int)
    requires 0 < j <= |keys|
    ensures TotalValues(spec, keys[..j]) == |GetOrEmpty(spec, keys[0])| + TotalValues(spec, keys[1..j])
  {
    assert keys[..j][1..] == keys[1..j];
  }

  /** The `m`-th value listed for the `j`-th key gives the set at position (values of keys before it) + m. */
  lemma EnumeratePosition(s: Script, defaults: Dict, spec: Dict, keys: seq<string>, j: int, m: int)
    requires Enumerate(s, defaults, spec, keys).Ok?
    requires 0 <= j < |keys| && 0 <= m < |GetOrEmpty(spec, keys[j])|
    ensures TotalValues(spec, keys[..j]) + m < |Enumerate(s, defaults, spec, keys).value|
    ensures PerturbedSet(s, defaults, keys[j], GetOrEmpty(spec, keys[j])[m])
      == Ok(Enumerate(s, defaults, spec, keys).value[TotalValues(spec, keys[..j]) + m])
  {
    EnumerateGroupsByKey(s, defaults, spec, keys, j, m);
    SetsForValuesElementwise(s, defaults, keys[j], GetOrEmpty(spec, keys[j]));
  }

  /** The generator fails exactly when one of the keys' groups fails. */
  lemma {:induction false} EnumerateFailsIffSomeKeyFails(s: Script, defaults: Dict, spec: Dict, keys: seq<string>)
    ensures Enumerate(s, defaults, spec, keys).Err? <==>
      exists j :: 0 <= j < |keys| && PerturbParams(s, keys[j], defaults, spec).Err?
  {
    if keys != [] {
      EnumerateFailsIffSomeKeyFails(s, defaults, spec, keys[1..]);
      assert forall j :: 1 <= j < |keys| ==> keys[j] == keys[1..][j - 1];
    }
  }

  // ----- the table of create_param_table.py and create_param_table_single.py -----

  /** The defaults of run "acang" (both enumerated scripts list the same table). */
  const AcangDefaults: Dict := Dict(
    ["F0", "LAI_MIN", "NL0", "R_GROW", "TLOW", "TUPP", "V_CRIT_ALPHA"],
    map[
      "F0" := [0.875, 0.875, 0.900, 0.800, 0.900],
      "LAI_MIN" := [4.0, 4.0, 1.0, 1.0, 1.0],
      "NL0" := [0.050, 0.030, 0.060, 0.030, 0.030],
      "R_GROW" := [0.25, 0.25, 0.25, 0.25, 0.25],
      "TLOW" := [0.0, -5.0, 0.0, 13.0, 0.0],
      "TUPP" := [36.0, 31.0, 36.0, 45.0, 36.0],
      "V_CRIT_ALPHA" := [0.343]
    ])

  /** The values listed per key for single-parameter tuning. */
  const SingleParamSpec: Dict := Dict(
    ["F0", "LAI_MIN", "NL0", "R_GROW", "TLOW", "V_CRIT_ALPHA"],
    map[
      "F0" := [0.8, 0.85, 0.90, 0.95],
      "LAI_MIN" := [1.0, 2.0, 3.0, 4.0],
      "NL0" := [0.035, 0.045, 0.055, 0.065],
      "R_GROW" := [0.150, 0.185, 0.22, 0.30],
      "TLOW" := [-5.0, -2.5, 2.5, 5.0],
      "V_CRIT_ALPHA" := [0.0, 0.25, 0.5, 0.75, 1.0]
    ])

  /** Every key of the single-parameter specification can be perturbed against the acang defaults, to any value. */
  lemma AcangKeyPerturbs(s: Script, key: string, v: real)
    requires s == ParamTable || s == ParamTableSingle
    requires key in SingleParamSpec.keys
    ensures PerturbedSet(s, AcangDefaults, key, v).Ok?
  {
    var d := AcangDefaults.entries;
    assert "TUPP" in d && |d["TUPP"]| == 5;
    if key == "V_CRIT_ALPHA" {
      assert RuleFor(s, key) == Broadcast;
    } else {
      assert key in d && |d[key]| == 5;
    }
  }

  lemma SingleParamKeysSucceed(s: Script, j: int)
    requires s == ParamTable || s == ParamTableSingle
    requires 0 <= j < |SingleParamSpec.keys|
    ensures PerturbParams(s, SingleParamSpec.keys[j], AcangDefaults, SingleParamSpec).Ok?
  {
    var key := SingleParamSpec.keys[j];
    var values := SingleParamSpec.entries[key];
    SetsForValuesElementwise(s, AcangDefaults, key, values);
    forall m | 0 <= m < |values|
      ensures PerturbedSet(s, AcangDefaults, key, values[m]).Ok?
    {
      AcangKeyPerturbs(s, key, values[m]);
    }
  }

  /** Counting the values of two runs of keys one after the other. */
  lemma {:induction false} TotalValuesConcat(spec: Dict, a: seq<string>, b: seq<string>)
    ensures TotalValues(spec, a + b) == TotalValues(spec, a) + TotalValues(spec, b)
  {
    if a == [] {
      assert a + b == b;
    } else {
      TotalValuesConcat(spec, a[1..], b);
      assert (a + b)[1..] == a[1..] + b;
    }
  }

  lemma TotalValuesSingle(spec: Dict, k: string)
    ensures TotalValues(spec, [k]) == |GetOrEmpty(spec, k)|
  {
    assert [k][1..] == [];
  }

  /** The number of values listed for each key of the single-parameter specification. */
  lemma SingleParamGroupSizes()
    ensures TotalValues(SingleParamSpec, ["F0"]) == 4
    ensures TotalValues(SingleParamSpec, ["LAI_MIN"]) == 4
    ensures TotalValues(SingleParamSpec, ["NL0"]) == 4
    ensures TotalValues(SingleParamSpec, ["R_GROW"]) == 4
    ensures TotalValues(SingleParamSpec, ["TLOW"]) == 4
    ensures TotalValues(SingleParamSpec, ["V_CRIT_ALPHA"]) == 5
  {
    TotalValuesSingle(SingleParamSpec, "F0");
    TotalValuesSingle(SingleParamSpec, "LAI_MIN");
    TotalValuesSingle(SingleParamSpec, "NL0");
    TotalValuesSingle(SingleParamSpec, "R_GROW");
    TotalValuesSingle(SingleParamSpec, "TLOW");
    TotalValuesSingle(SingleParamSpec, "V_CRIT_ALPHA");
  }

  /** 4 + 4 + 4 + 4 + 4 + 5 values, 20 of them before V_CRIT_ALPHA's. */
  lemma SingleParamCounts()
    ensures TotalValues(SingleParamSpec, SingleParamSpec.keys[..0]) == 0
    ensures TotalValues(SingleParamSpec, SingleParamSpec.keys[..5]) == 20
    ensures TotalValues(SingleParamSpec, SingleParamSpec.keys) == 25
  {
    var spec := SingleParamSpec;
    var keys := spec.keys;
    assert keys[..0] == [];
    SingleParamGroupSizes();
    TotalValuesConcat(spec, ["F0"], ["LAI_MIN"]);
    TotalValuesConcat(spec, ["F0", "LAI_MIN"], ["NL0"]);
    TotalValuesConcat(spec, ["F0", "LAI_MIN", "NL0"], ["R_GROW"]);
    TotalValuesConcat(spec, ["F0", "LAI_MIN", "NL0", "R_GROW"], ["TLOW"]);
    TotalValuesConcat(spec, ["F0", "LAI_MIN", "NL0", "R_GROW", "TLOW"], ["V_CRIT_ALPHA"]);
    assert keys[..5] == ["F0", "LAI_MIN", "NL0", "R_GROW", "TLOW"];
  }

  /** The single-parameter script's six range keys fit the plot's grid: its plot does not raise. */
  lemma SingleParamPlotFits(s: Script)
    requires s == ParamTable || s == ParamTableSingle
    ensures GeneratePerturbedParams(s, AcangDefaults, SingleParamSpec).Ok?
    ensures |SingleParamSpec.keys| == 6 && PlotOutcome(GridRows, |SingleParamSpec.keys|) == None
  {
    SingleParamTableHas25Sets(s);
    GridHoldsSixKeys(|SingleParamSpec.keys|);
  }

  /** Every key's group is generated, so the whole table is: 4 + 4 + 4 + 4 + 4 + 5 = 25 sets. */
  lemma SingleParamTableHas25Sets(s: Script)
    requires s == ParamTable || s == ParamTableSingle
    ensures GeneratePerturbedParams(s, AcangDefaults, SingleParamSpec).Ok?
    ensures |GeneratePerturbedParams(s, AcangDefaults, SingleParamSpec).value| == 25
  {
    var keys := SingleParamSpec.keys;
    forall j | 0 <= j < |keys|
      ensures PerturbParams(s, keys[j], AcangDefaults, SingleParamSpec).Ok?
    {
      SingleParamKeysSucceed(s, j);
    }
    EnumerateFailsIffSomeKeyFails(s, AcangDefaults, SingleParamSpec, keys);
    SingleParamCounts();
  }

  /** The sets of the `j`-th key sit at positions (values of the keys before it) + m of the whole table. */
  lemma GroupOfKey(s: Script, defaults: Dict, spec: Dict, j: int, before: nat, m: int)
    requires GeneratePerturbedParams(s, defaults, spec).Ok?
    requires 0 <= j < |spec.keys| && spec.keys[j] in spec.entries && 0 <= m < |spec.entries[spec.keys[j]]|
    requires TotalValues(spec, spec.keys[..j]) == before
    ensures before + m < |GeneratePerturbedParams(s, defaults, spec).value|
    ensures PerturbedSet(s, defaults, spec.keys[j], spec.entries[spec.keys[j]][m])
        == Ok(GeneratePerturbedParams(s, defaults, spec).value[before + m])
  {
    var key := spec.keys[j];
    assert GetOrEmpty(spec, key) == spec.entries[key];
    EnumeratePosition(s, defaults, spec, spec.keys, j, m);
  }

  /** The first and the last key of the single-parameter specification, with their values. */
  lemma SingleParamEnds()
    ensures SingleParamSpec.keys[0] == "F0" && SingleParamSpec.keys[5] == "V_CRIT_ALPHA"
    ensures "F0" in SingleParamSpec.entries && SingleParamSpec.entries["F0"] == [0.8, 0.85, 0.90, 0.95]
    ensures "V_CRIT_ALPHA" in SingleParamSpec.entries && SingleParamSpec.entries["V_CRIT_ALPHA"] == [0.0, 0.25, 0.5, 0.75, 1.0]
  {
  }

  /** F0's four sets come first ... */
  lemma SingleParamFirstGroup(s: Script, m: int)
    requires s == ParamTable || s == ParamTableSingle
    requires 0 <= m < 4
    ensures GeneratePerturbedParams(s, AcangDefaults, SingleParamSpec).Ok?
    ensures |GeneratePerturbedParams(s, AcangDefaults, SingleParamSpec).value| == 25
    ensures PerturbedSet(s, AcangDefaults, "F0", [0.8, 0.85, 0.90, 0.95][m])
        == Ok(GeneratePerturbedParams(s, AcangDefaults, SingleParamSpec).value[m])
  {
    SingleParamTableHas25Sets(s);
    SingleParamCounts();
    SingleParamEnds();
    GroupOfKey(s, AcangDefaults, SingleParamSpec, 0, 0, m);
  }

  /** ... and V_CRIT_ALPHA's five last. */
  lemma SingleParamLastGroup(s: Script, m: int)
    requires s == ParamTable || s == ParamTableSingle
    requires 0 <= m < 5
    ensures GeneratePerturbedParams(s, AcangDefaults, SingleParamSpec).Ok?
    ensures |GeneratePerturbedParams(s, AcangDefaults, SingleParamSpec).value| == 25
    ensures PerturbedSet(s, AcangDefaults, "V_CRIT_ALPHA", [0.0, 0.25, 0.5, 0.75, 1.0][m])
        == Ok(GeneratePerturbedParams(s, AcangDefaults, SingleParamSpec).value[20 + m])
  {
    SingleParamTableHas25Sets(s);
    SingleParamCounts();
    SingleParamEnds();
    GroupOfKey(s, AcangDefaults, SingleParamSpec, 5, 20, m);
  }
}

=== FILE: job_ids.dfy ===
/**
 * The ensemble job-identifier generator of helpers.py (`generate_ensemble_jobid`).
 *
 * A 4-character experiment name and an index in [0, 259] give a 5-character
 * job id: the name, with a case transform chosen by the index's bucket of 26,
 * followed by the letter `a + index mod 26` (upper-cased in two buckets).
 */
module JobIds {
  import opened Results

  /** The two `ValueError`s the generator raises. */
  datatype JobIdError = NameNotFourChars | IndexOutOfRange

  const IdCount: int := 260
  const BucketSize: int := 26

  // ----- ASCII case mapping (Python's str.lower / str.upper restricted to ASCII) -----

  predicate IsLowerAscii(c: char) { 'a' <= c <= 'z' }
  predicate IsUpperAscii(c: char) { 'A' <= c <= 'Z' }

  function Upper(c: char): (u: char)
    ensures IsLowerAscii(c) ==> IsUpperAscii(u)
    ensures !IsLowerAscii(c) ==> u == c
  {
    if IsLowerAscii(c) then (c as int - 32) as char else c
  }

  function Lower(c: char): (l: char)
    ensures IsUpperAscii(c) ==> IsLowerAscii(l)
    ensures !IsUpperAscii(c) ==> l == c
  {
    if IsUpperAscii(c) then (c as int + 32) as char else c
  }

  function LowerStr(s: string): (r: string)
    ensures |r| == |s|
  {
    seq(|s|, i requires 0 <= i < |s| => Lower(s[i]))
  }

  function UpperStr(s: string): (r: string)
    ensures |r| == |s|
  {
    seq(|s|, i requires 0 <= i < |s| => Upper(s[i]))
  }

  /** Python's str.capitalize: first character upper, the rest lower. */
  function Capitalize(s: string): (r: string)
    ensures |r| == |s|
  {
    if s == [] then [] else [Upper(s[0])] + LowerStr(s[1..])
  }

  /** `chr(ord("a") + k)` */
  function Letter(k: int): char
    requires 0 <= k < 26
  {
    ('a' as int + k) as char
  }

  // ----- the generator -----

  /**
   * generate_ensemble_jobid: reject a name that is not 4 characters, then an
   * index outside [0, 259]; otherwise the bucket's name followed by its suffix.
   */
  function GenerateEnsembleJobId(name: string, index: int): (r: Result<string, JobIdError>)
    ensures r == Err(NameNotFourChars) <==> |name| != 4
    ensures r == Err(IndexOutOfRange) <==> |name| == 4 && !(0 <= index < IdCount)
    ensures r.Ok? ==> |r.value| == 5
  {
    if |name| != 4 then Err(NameNotFourChars)
    else if !(0 <= index < 260) then Err(IndexOutOfRange)
    else
      var (transformed, modified) := BucketTransform(name, index);
      Ok(transformed + [modified])
  }

  /** The if-chain over the ten index buckets: each reassigns the name and picks the suffix character. */
  function BucketTransform(name: string, index: int): (r: (string, char))
    requires |name| == 4 && 0 <= index < IdCount
    ensures |r.0| == 4
  {
    if index < 26 then
      (name, Letter(index))
    else if index < 52 then
      (Capitalize(name), Letter(index - 26))
    else if index < 78 then
      ([Lower(name[0])] + [Upper(name[1])] + name[2..], Letter(index - 52))
    else if index < 104 then
      (LowerStr(name[..2]) + [Upper(name[2])] + name[3..], Letter(index - 78))
    else if index < 130 then
      (LowerStr(name[..3]) + [Upper(name[3])], Letter(index - 104))
    else if index < 156 then
      (LowerStr(name), Upper(Letter(index - 130)))
    else if index < 182 then
      ([Upper(name[0])] + [Upper(name[1])] + name[2..], Letter(index - 156))
    else if index < 208 then
      ([Upper(name[0])] + [Lower(name[1])] + [Upper(name[2])] + [name[3]], Letter(index - 182))
    else if index < 234 then
      ([Upper(name[0])] + [Lower(name[1])] + [Lower(name[2])] + [Upper(name[3])], Letter(index - 208))
    else
      ([Upper(name[0])] + LowerStr(name[1..]), Upper(Letter(index - 234)))
  }

  /**
   * Every bucket only changes letter case in the name, and its suffix is the
   * (index mod 26)-th letter, upper-cased exactly in buckets 130-155 and 234-259.
   */
  lemma {:induction false} IdIsNameUpToCasePlusSuffix(name: string, index: int)
    requires |name| == 4 && 0 <= index < IdCount
    ensures GenerateEnsembleJobId(name, index).Ok?
    ensures LowerStr(GenerateEnsembleJobId(name, index).value[..4]) == LowerStr(name)
    ensures GenerateEnsembleJobId(name, index).value[4] == SuffixOf(index)
  {
    var (t, c) := BucketTransform(name, index);
    var id := GenerateEnsembleJobId(name, index).value;
    assert id[..4] == t && id[4] == c;
    forall i | 0 <= i < 4
      ensures Lower(t[i]) == Lower(name[i])
    {
      assert t[i] == name[i] || t[i] == Upper(name[i]) || t[i] == Lower(name[i]);
    }
    assert LowerStr(t) == LowerStr(name);
  }

  /** Buckets 5 (130-155) and 9 (234-259) upper-case the suffix letter. */
  predicate UpperSuffixBucket(bucket: int) { bucket == 5 || bucket == 9 }

  /**
   * The suffix as an independent formula: the (index mod 26)-th letter,
   * upper-cased in the two upper-suffix buckets.
   */
  function SuffixOf(index: int): char
    requires 0 <= index < IdCount
  {
    var letter := Letter(index % BucketSize);
    if UpperSuffixBucket(index / BucketSize) then Upper(letter) else letter
  }

  // ----- decoding an id back to its index (for names of lower-case letters) -----

  /** The case pattern (upper-case or not, for the 4 name characters and the suffix) of each bucket. */
  const BucketPatterns: seq<seq<bool>> := [
    [false, false, false, false, false],
    [true,  false, false, false, false],
    [false, true,  false, false, false],
    [false, false, true,  false, false],
    [false, false, false, true,  false],
    [false, false, false, false, true ],
    [true,  true,  false, false, false],
    [true,  false, true,  false, false],
    [true,  false, false, true,  false],
    [true,  false, false, false, true ]
  ]

  function CasePattern(id: string): (p: seq<bool>)
    ensures |p| == |id|
  {
    seq(|id|, i requires 0 <= i < |id| => IsUpperAscii(id[i]))
  }

  /** Position of `p` in the bucket table, searching from bucket `from` on. */
  function FindBucket(p: seq<bool>, from: nat): (b: Option<nat>)
    requires from <= |BucketPatterns|
    decreases |BucketPatterns| - from
    ensures b.Some? ==> from <= b.value < |BucketPatterns| && BucketPatterns[b.value] == p
    ensures b.None? ==> forall k :: from <= k < |BucketPatterns| ==> BucketPatterns[k] != p
  {
    if from == |BucketPatterns| then None
    else if BucketPatterns[from] == p then Some(from)
    else FindBucket(p, from + 1)
  }

  predicate IsLowerName(name: string)
  {
    |name| == 4 && forall i :: 0 <= i < 4 ==> IsLowerAscii(name[i])
  }

  /** The index a job id was generated from: bucket from the case pattern, offset from the suffix letter. */
  function DecodeIndex(id: string): (r: Option<int>)
    ensures r.Some? ==> 0 <= r.value < IdCount
  {
    if |id| != 5 || !IsLowerAscii(Lower(id[4])) then None
    else match FindBucket(CasePattern(id), 0)
      case None => None
      case Some(b) => Some(BucketSize * b + (Lower(id[4]) as int - 'a' as int))
  }

  /** The table entry found for bucket `b`'s own pattern is `b`: no earlier entry has that pattern. */
  lemma FindBucketOf(p: seq<bool>, b: nat)
    requires b < |BucketPatterns| && BucketPatterns[b] == p
    ensures FindBucket(p, 0) == Some(b)
  {
    if b == 0 {} else if b == 1 {} else if b == 2 {} else if b == 3 {} else if b == 4 {}
    else if b == 5 {} else if b == 6 {} else if b == 7 {} else if b == 8 {} else {}
  }

  /** The case pattern of the id generated at `index` is the table entry of its bucket. */
  lemma {:induction false} PatternOfGenerated(name: string, index: int)
    requires IsLowerName(name) && 0 <= index < IdCount
    ensures GenerateEnsembleJobId(name, index).Ok?
    ensures CasePattern(GenerateEnsembleJobId(name, index).value) == BucketPatterns[index / BucketSize]
  {
    var id := GenerateEnsembleJobId(name, index).value;
    var p := CasePattern(id);
    assert forall i :: 0 <= i < 4 ==> !IsUpperAscii(name[i]) && IsUpperAscii(Upper(name[i])) && Lower(name[i]) == name[i];
    assert !IsUpperAscii(Letter(index % 26)) && IsUpperAscii(Upper(Letter(index % 26)));
    assert p == [p[0], p[1], p[2], p[3], p[4]];
  }

  /** Round trip: for a name of four lower-case letters the index is recovered from the id. */
  lemma {:induction false} DecodeGenerated(name: string, index: int)
    requires IsLowerName(name) && 0 <= index < IdCount
    ensures GenerateEnsembleJobId(name, index).Ok?
    ensures DecodeIndex(GenerateEnsembleJobId(name, index).value) == Some(index)
  {
    var id := GenerateEnsembleJobId(name, index).value;
    PatternOfGenerated(name, index);
    FindBucketOf(CasePattern(id), index / BucketSize);
    assert Lower(id[4]) == Letter(index % BucketSize);
  }

  /** For a name of four lower-case letters, distinct indices give distinct ids. */
  lemma {:induction false} IdsUniqueForLowerName(name: string, i: int, j: int)
    requires IsLowerName(name) && 0 <= i < IdCount && 0 <= j < IdCount && i != j
    ensures GenerateEnsembleJobId(name, i).Ok? && GenerateEnsembleJobId(name, j).Ok?
    ensures GenerateEnsembleJobId(name, i).value != GenerateEnsembleJobId(name, j).value
  {
    DecodeGenerated(name, i);
    DecodeGenerated(name, j);
  }

  /** Uniqueness fails for other names: "XQAB" gives "XQABa" at indices 0 and 156. */
  lemma UpperNameCollides()
    ensures GenerateEnsembleJobId("XQAB", 0) == Ok("XQABa")
    ensures GenerateEnsembleJobId("XQAB", 156) == Ok("XQABa")
  {
    var name := "XQAB";
    assert Letter(0) == 'a';
    assert [Upper(name[0])] + [Upper(name[1])] + name[2..] == name;
    assert name + ['a'] == "XQABa";
  }

  /** The first, second and last ids of experiment "xqab". */
  lemma XqabExamples()
    ensures GenerateEnsembleJobId("xqab", 0) == Ok("xqaba")
    ensures GenerateEnsembleJobId("xqab", 26) == Ok("Xqaba")
    ensures GenerateEnsembleJobId("xqab", 259) == Ok("XqabZ")
  {
    var name := "xqab";
    assert Letter(0) == 'a' && Letter(25) == 'z' && Upper('z') == 'Z' && Upper('x') == 'X';
    assert LowerStr(name[1..]) == "qab";
    assert name + ['a'] == "xqaba";
    assert Capitalize(name) + ['a'] == "Xqaba";
    assert [Upper(name[0])] + LowerStr(name[1..]) + ['Z'] == "XqabZ";
  }
}

=== FILE: param_sets.dfy ===
/**
 * Parameter tables: a Python dict from parameter name to a list of values,
 * one per plant functional type (PFT). A dict remembers the order in which
 * its keys were first inserted; assigning to a key already present keeps
 * its place.
 */
module ParamSets {
  import opened Results

  /** The exceptions the perturbation scripts can raise. */
  datatype Error = KeyError(key: string) | IndexError

  /** `keys` is the insertion order, `entries` the contents. */
  datatype Dict = Dict(keys: seq<string>, entries: map<string, seq<real>>)

  /** What every Python dict satisfies: each key listed once, and listed exactly when present. */
  ghost predicate WellFormed(d: Dict)
  {
    && (forall i, j :: 0 <= i < j < |d.keys| ==> d.keys[i] != d.keys[j])
    && (forall k :: k in d.entries <==> k in d.keys)
  }

  const Empty: Dict := Dict([], map[])

  /** `d[k] = v` */
  function Put(d: Dict, k: string, v: seq<real>): (r: Dict)
    ensures r.entries == d.entries[k := v]
    ensures k in d.entries ==> r.keys == d.keys
    ensures k !in d.entries ==> r.keys == d.keys + [k]
    ensures WellFormed(d) ==> WellFormed(r)
  {
    if k in d.entries then Dict(d.keys, d.entries[k := v])
    else Dict(d.keys + [k], d.entries[k := v])
  }

  /** `d.get(k, [])` */
  function GetOrEmpty(d: Dict, k: string): seq<real>
  {
    if k in d.entries then d.entries[k] else []
  }
}

=== FILE: perturbation.dfy ===
/**
 * `perturb_list`, the per-key primitive shared by the five parameter-table
 * scripts: pick a rule by key name, apply it to a copy of the default
 * vector, then round. The scripts differ only in which keys each rule
 * covers and in the rounding, so one definition takes the script as a
 * policy table (`RuleFor`, `PrecisionFor`).
 */
module Perturbation {
  import opened Results
  import opened ParamSets
  import opened Rounding

  /** The five scripts that carry their own copy of `perturb_list`. */
  datatype Script =
    | ParamTable          // create_param_table.py
    | ParamTableSingle    // create_param_table_single.py
    | RandomTable         // create_param_table_random.py
    | CsoilTable          // create_param_table_csoil.py
    | CsoilCandidates     // create_param_table_csoil_from_candidates.py

  /** The perturbation rules. */
  datatype Rule =
    | ProRata        // every slot moves by `new - defaults[0]`
    | OverrideTrees  // slots 0 and 1 (the tree PFTs) become `new`
    | Broadcast      // every slot becomes `new`
    | AddDelta       // every slot becomes `default + new`
    | PassThrough    // no rule for this key

  /** The if/elif chain of each script's `perturb_list`. */
  function RuleFor(s: Script, key: string): Rule
  {
    match s
    case ParamTable | ParamTableSingle =>
      if key == "F0" || key == "NL0" then ProRata
      else if key == "LAI_MIN" then OverrideTrees
      else if key == "R_GROW" || key == "V_CRIT_ALPHA" then Broadcast
      else if key == "TLOW" || key == "TUPP" then AddDelta
      else PassThrough
    case RandomTable =>
      if key in ["F0", "NL0", "ALPHA", "G_AREA"] then ProRata
      else if key == "LAI_MIN" then OverrideTrees
      else if key == "R_GROW" || key == "V_CRIT_ALPHA" then Broadcast
      else if key == "TLOW" || key == "TUPP" then AddDelta
      else PassThrough
    case CsoilTable | CsoilCandidates =>
      if key == "F0" || key == "NL0" then ProRata
      else if key == "LAI_MIN" then OverrideTrees
      else if key == "R_GROW" || key in ["V_CRIT_ALPHA", "Q10", "KAPS"] then Broadcast
      else if key == "TLOW" || key == "TUPP" then AddDelta
      else PassThrough
  }

  /** The final comprehension: 3 or 5 decimals; KAPS unrounded in the two soil-carbon scripts. */
  function PrecisionFor(s: Script, key: string): Precision
  {
    match s
    case ParamTable | ParamTableSingle => Decimals(3)
    case RandomTable => Decimals(5)
    case CsoilTable => if key == "KAPS" then FullPrecision else Decimals(3)
    case CsoilCandidates => if key == "KAPS" then FullPrecision else Decimals(5)
  }

  /** Pro-rata reads slot 0 and the tree override writes slots 0 and 1: too short a vector raises IndexError. */
  predicate RuleFails(rule: Rule, d: seq<real>)
  {
    (rule == ProRata && |d| == 0) || (rule == OverrideTrees && |d| < 2)
  }

  /**
   * A rule applied to a default vector, before rounding. Pro-rata reads
   * slot 0 and the tree override writes slots 0 and 1, so on shorter
   * vectors they raise IndexError.
   */
  function Raw(rule: Rule, d: seq<real>, v: real): (r: Result<seq<real>, Error>)
    ensures r.Err? <==> RuleFails(rule, d)
    ensures r.Err? ==> r.error == IndexError
    ensures r.Ok? ==> |r.value| == |d|
  {
    match rule
    case ProRata =>
      if |d| == 0 then Err(IndexError)
      else Ok(seq(|d|, i requires 0 <= i < |d| => d[i] + (v - d[0])))
    case OverrideTrees =>
      if |d| < 2 then Err(IndexError) else Ok([v, v] + d[2..])
    case Broadcast => Ok(seq(|d|, _ => v))
    case AddDelta => Ok(seq(|d|, i requires 0 <= i < |d| => d[i] + v))
    case PassThrough => Ok(d)
  }

  /**
   * What each rule does to the vector: pro-rata puts `v` in slot 0 and keeps
   * every difference between slots; the tree override puts `v` in slots 0
   * and 1 and keeps the rest; a broadcast puts `v` everywhere; a delta adds
   * `v` to every slot; a key without a rule is left alone.
   */
  lemma RawRuleEffects(rule: Rule, d: seq<real>, v: real)
    requires Raw(rule, d, v).Ok?
    ensures var r := Raw(rule, d, v).value;
      && (rule == ProRata ==>
           && r[0] == v
           && forall i, j :: 0 <= i < |d| && 0 <= j < |d| ==> r[i] - r[j] == d[i] - d[j])
      && (rule == OverrideTrees ==> r[0] == v && r[1] == v && r[2..] == d[2..])
      && (rule == Broadcast ==> forall i :: 0 <= i < |d| ==> r[i] == v)
      && (rule == AddDelta ==> forall i :: 0 <= i < |d| ==> r[i] - d[i] == v)
      && (rule == PassThrough ==> r == d)
  {
  }

  /** The new value is the vector's own anchor for the rule: what a degenerate range `[x, x]` with x the anchor draws. */
  predicate Anchored(rule: Rule, d: seq<real>, v: real)
  {
    match rule
    case ProRata => |d| > 0 && v == d[0]
    case OverrideTrees => |d| >= 2 && d[0] == v && d[1] == v
    case Broadcast => forall i :: 0 <= i < |d| ==> d[i] == v
    case AddDelta => v == 0.0
    case PassThrough => true
  }

  /** Perturbing a vector to its own anchor gives it back unchanged, before rounding. */
  lemma AnchoredDrawReproduces(rule: Rule, d: seq<real>, v: real)
    requires Anchored(rule, d, v)
    ensures Raw(rule, d, v) == Ok(d)
  {
    match rule
    case ProRata =>
      assert Raw(rule, d, v).value == d;
    case OverrideTrees =>
      assert [v, v] + d[2..] == d;
    case Broadcast =>
      assert Raw(rule, d, v).value == d;
    case AddDelta =>
      assert Raw(rule, d, v).value == d;
    case PassThrough =>
  }

  /** perturb_list(defaults, key, new): the script's rule for `key`, then its rounding. */
  function Perturbed(s: Script, d: seq<real>, key: string, v: real): (r: Result<seq<real>, Error>)
    ensures r.Err? <==> RuleFails(RuleFor(s, key), d)
    ensures r.Err? ==> r.error == IndexError
    ensures r.Ok? ==> |r.value| == |d|
  {
    match Raw(RuleFor(s, key), d, v)
    case Err(e) => Err(e)
    case Ok(xs) => Ok(ApplyAll(PrecisionFor(s, key), xs))
  }

  /**
   * perturb_list as the scripts write it: copy the defaults, update the copy
   * slot by slot (pro-rata loop, the two tree slots) or rebuild it with a
   * comprehension, then round every value.
   */
  method PerturbList(s: Script, defaults: seq<real>, key: string, newValue: real)
    returns (r: Result<seq<real>, Error>)
    ensures r == Perturbed(s, defaults, key, newValue)
  {
    var list := defaults;
    var rule := RuleFor(s, key);
    if rule == ProRata {
      if |defaults| == 0 {
        return Err(IndexError);
      }
      var delta := newValue - defaults[0];
      var i := 0;
      while i < |defaults|
        invariant 0 <= i <= |defaults| && |list| == |defaults|
        invariant forall j :: 0 <= j < i ==> list[j] == defaults[j] + delta
        invariant forall j :: i <= j < |defaults| ==> list[j] == defaults[j]
      {
        list := list[i := list[i] + delta];
        i := i + 1;
      }
      assert list == seq(|defaults|, j requires 0 <= j < |defaults| => defaults[j] + (newValue - defaults[0]));
    } else if rule == OverrideTrees {
      if |list| < 1 {
        return Err(IndexError);
      }
      list := list[0 := newValue];
      if |list| < 2 {
        return Err(IndexError);
      }
      list := list[1 := newValue];
      assert list == [newValue, newValue] + defaults[2..];
    } else if rule == Broadcast {
      list := seq(|list|, _ => newValue);
    } else if rule == AddDelta {
      list := seq(|list|, i requires 0 <= i < |list| => list[i] + newValue);
    }
    r := Ok(ApplyAll(PrecisionFor(s, key), list));
  }

  /** The result has the default vector's length, and fails only on a vector too short for its rule. */
  lemma PerturbedKeepsLength(s: Script, d: seq<real>, key: string, v: real)
    ensures Perturbed(s, d, key, v).Err? <==>
      (RuleFor(s, key) == ProRata && |d| == 0) || (RuleFor(s, key) == OverrideTrees && |d| < 2)
    ensures Perturbed(s, d, key, v).Ok? ==> |Perturbed(s, d, key, v).value| == |d|
  {
  }

  /** Each rounded slot lies within half a unit in the last kept place of its unrounded value. */
  lemma {:induction false} PerturbedNearRaw(s: Script, d: seq<real>, key: string, v: real, i: int)
    requires Perturbed(s, d, key, v).Ok? && 0 <= i < |d|
    ensures Raw(RuleFor(s, key), d, v).Ok?
    ensures var raw := Raw(RuleFor(s, key), d, v).value[i];
      raw - HalfUnit(PrecisionFor(s, key)) <= Perturbed(s, d, key, v).value[i] <= raw + HalfUnit(PrecisionFor(s, key))
  {
    ApplyIsNearest(PrecisionFor(s, key), Raw(RuleFor(s, key), d, v).value[i]);
  }

  /**
   * The slots a rule sets to the new value (all of them for a broadcast,
   * slot 0 for pro-rata, slots 0 and 1 for the tree override) end up within
   * rounding of it; so a draw in [lo, hi] keeps them in [lo, hi] up to rounding.
   */
  predicate SetsSlotToNewValue(rule: Rule, i: int)
  {
    rule == Broadcast || (rule == ProRata && i == 0) || (rule == OverrideTrees && 0 <= i < 2)
  }

  lemma {:induction false} DrawnSlotsStayInRange(s: Script, d: seq<real>, key: string, v: real, lo: real, hi: real, i: int)
    requires Perturbed(s, d, key, v).Ok? && 0 <= i < |d|
    requires SetsSlotToNewValue(RuleFor(s, key), i)
    requires lo <= v <= hi
    ensures lo - HalfUnit(PrecisionFor(s, key)) <= Perturbed(s, d, key, v).value[i] <= hi + HalfUnit(PrecisionFor(s, key))
  {
    PerturbedNearRaw(s, d, key, v, i);
    RawRuleEffects(RuleFor(s, key), d, v);
  }

  /** In every script TLOW and TUPP are shifted by the drawn value and rounded alike. */
  lemma TemperatureRules(s: Script)
    ensures RuleFor(s, "TLOW") == AddDelta && RuleFor(s, "TUPP") == AddDelta
    ensures PrecisionFor(s, "TLOW") == PrecisionFor(s, "TUPP")
  {
  }

  /** TLOW and TUPP shifted by the same value keep the default gap, up to rounding of both. */
  lemma {:induction false} SharedDeltaKeepsGap(s: Script, dLow: seq<real>, dUpp: seq<real>, v: real, i: int)
    requires 0 <= i < |dLow| && 0 <= i < |dUpp|
    ensures Perturbed(s, dLow, "TLOW", v).Ok? && Perturbed(s, dUpp, "TUPP", v).Ok?
    ensures var e := 2.0 * HalfUnit(PrecisionFor(s, "TLOW"));
      var gap := Perturbed(s, dUpp, "TUPP", v).value[i] - Perturbed(s, dLow, "TLOW", v).value[i];
      dUpp[i] - dLow[i] - e <= gap <= dUpp[i] - dLow[i] + e
  {
    TemperatureRules(s);
    PerturbedNearRaw(s, dLow, "TLOW", v, i);
    PerturbedNearRaw(s, dUpp, "TUPP", v, i);
    RawRuleEffects(AddDelta, dLow, v);
    RawRuleEffects(AddDelta, dUpp, v);
  }

  /** Which keys each script's rules and rounding cover. */
  lemma ScriptPolicies()
    ensures forall s :: RuleFor(s, "LAI_MIN") == OverrideTrees && RuleFor(s, "TLOW") == AddDelta
    ensures RuleFor(RandomTable, "ALPHA") == ProRata && RuleFor(RandomTable, "G_AREA") == ProRata
    ensures RuleFor(CsoilCandidates, "ALPHA") == PassThrough && RuleFor(CsoilCandidates, "G_AREA") == PassThrough
    ensures RuleFor(RandomTable, "Q10") == PassThrough && RuleFor(CsoilTable, "Q10") == Broadcast
    ensures RuleFor(CsoilTable, "KAPS") == Broadcast && PrecisionFor(CsoilTable, "KAPS") == FullPrecision
    ensures PrecisionFor(CsoilCandidates, "KAPS") == FullPrecision && PrecisionFor(CsoilCandidates, "Q10") == Decimals(5)
    ensures forall s :: RuleFor(s, "ALPHA") == ProRata <==> s == RandomTable
    ensures forall s :: RuleFor(s, "G_AREA") == ProRata <==> s == RandomTable
    ensures forall s :: RuleFor(s, "Q10") == Broadcast <==> s.CsoilTable? || s.CsoilCandidates?
    ensures forall s :: RuleFor(s, "KAPS") == Broadcast <==> s.CsoilTable? || s.CsoilCandidates?
    ensures forall s :: PrecisionFor(s, "KAPS") == FullPrecision <==> s.CsoilTable? || s.CsoilCandidates?
    ensures forall s, key :: PrecisionFor(s, key) == FullPrecision ==> key == "KAPS"
  {
  }

  /** A value with at most 3 decimals, written as n / 1000, survives 3-decimal rounding. */
  lemma KeepsThreeDecimals(n: int, x: real)
    requires x == n as real / 1000.0
    ensures Round(x, 3) == x
  {
    assert Pow10(3) == 1000.0;
    RoundKeepsGridValue(n, 3);
  }

  /** The pro-rata example of create_param_table.py's F0 rule, rounded to 3 decimals. */
  lemma ParamTableProRataExample()
    ensures Perturbed(ParamTable, [0.875, 0.875, 0.900, 0.800, 0.900], "F0", 0.8)
      == Ok([0.8, 0.8, 0.825, 0.725, 0.825])
  {
    var f0 := [0.8, 0.8, 0.825, 0.725, 0.825];
    assert Raw(ProRata, [0.875, 0.875, 0.900, 0.800, 0.900], 0.8).value == f0;
    KeepsThreeDecimals(800, 0.8);
    KeepsThreeDecimals(825, 0.825);
    KeepsThreeDecimals(725, 0.725);
    assert ApplyAll(Decimals(3), f0) == f0;
  }

  /** The additive example of create_param_table.py's TLOW rule. */
  lemma ParamTableDeltaExample()
    ensures Perturbed(ParamTable, [0.0, -5.0, 0.0, 13.0, 0.0], "TLOW", -2.5)
      == Ok([-2.5, -7.5, -2.5, 10.5, -2.5])
  {
    var tlow := [-2.5, -7.5, -2.5, 10.5, -2.5];
    assert Raw(AddDelta, [0.0, -5.0, 0.0, 13.0, 0.0], -2.5).value == tlow;
    KeepsThreeDecimals(-2500, -2.5);
    KeepsThreeDecimals(-7500, -7.5);
    KeepsThreeDecimals(10500, 10.5);
    assert ApplyAll(Decimals(3), tlow) == tlow;
  }

  /**
   * The assignment both generators make for one key:
   * `target[key] = perturb_list(defaults[key], key, v)`, and for TLOW also
   * `target["TUPP"] = perturb_list(defaults["TUPP"], "TUPP", v)` with the same value.
   * A key missing from the defaults raises KeyError.
   */
  function AssignPerturbed(s: Script, target: Dict, defaults: Dict, key: string, v: real): (r: Result<Dict, Error>)
    ensures r.Err? <==>
      || key !in defaults.entries
      || Perturbed(s, defaults.entries[key], key, v).Err?
      || (key == "TLOW" && ("TUPP" !in defaults.entries || Perturbed(s, defaults.entries["TUPP"], "TUPP", v).Err?))
    ensures r.Ok? ==>
      var own := Perturbed(s, defaults.entries[key], key, v).value;
      r.value.entries ==
        if key == "TLOW" then target.entries[key := own]["TUPP" := Perturbed(s, defaults.entries["TUPP"], "TUPP", v).value]
        else target.entries[key := own]
  {
    if key !in defaults.entries then Err(KeyError(key))
    else match Perturbed(s, defaults.entries[key], key, v)
      case Err(e) => Err(e)
      case Ok(xs) =>
        var updated := Put(target, key, xs);
        if key != "TLOW" then Ok(updated)
        else if "TUPP" !in defaults.entries then Err(KeyError("TUPP"))
        else (match Perturbed(s, defaults.entries["TUPP"], "TUPP", v)
          case Err(e) => Err(e)
          case Ok(ys) => Ok(Put(updated, "TUPP", ys)))
  }

  /** Keys already in the target keep their place, and a well-formed target gives a well-formed result. */
  lemma AssignPerturbedKeys(s: Script, target: Dict, defaults: Dict, key: string, v: real)
    requires AssignPerturbed(s, target, defaults, key, v).Ok?
    ensures key in target.entries && (key == "TLOW" ==> "TUPP" in target.entries) ==>
      AssignPerturbed(s, target, defaults, key, v).value.keys == target.keys
    ensures WellFormed(target) ==> WellFormed(AssignPerturbed(s, target, defaults, key, v).value)
  {
  }

  /** The same assignment written as the scripts' statements, calling `PerturbList`. */
  method AssignPerturbedInPlace(s: Script, target: Dict, defaults: Dict, key: string, v: real)
    returns (r: Result<Dict, Error>)
    ensures r == AssignPerturbed(s, target, defaults, key, v)
  {
    if key !in defaults.entries {
      return Err(KeyError(key));
    }
    var xs := PerturbList(s, defaults.entries[key], key, v);
    if xs.Err? {
      return Err(xs.error);
    }
    var updated := Put(target, key, xs.value);
    if key == "TLOW" {
      if "TUPP" !in defaults.entries {
        return Err(KeyError("TUPP"));
      }
      var ys := PerturbList(s, defaults.entries["TUPP"], "TUPP", v);
      if ys.Err? {
        return Err(ys.error);
      }
      updated := Put(updated, "TUPP", ys.value);
    }
    return Ok(updated);
  }
}

=== FILE: plotting.dfy ===
/**
 * The subplot grid of `plot_param_distributions` (helpers.py). The function
 * draws one page per plant functional type. Each page is a grid of axes two
 * columns wide, and the i-th range key is drawn in cell (i / 2, i % 2). Only
 * this indexing is modelled: a key without a cell raises IndexError. The
 * histogram values, the page layout and the PDF file are not.
 */
module Plotting {
  import opened Results
  import opened ParamSets

  /** `plt.subplots(3, 2)`: the grid each page is drawn on. */
  const GridRows: nat := 3
  const GridCols: nat := 2

  /** The pages: BL, NL, C3 grass, C4 grass, shrub. */
  const PftCount: nat := 5

  /**
   * The i-th key's cell `axs[i // 2, i % 2]` exists in a grid with `rows`
   * rows. A grid of one row is squeezed to a one-dimensional array of axes,
   * which has no two-index cells at all.
   */
  predicate CellExists(rows: nat, i: nat)
  {
    2 <= rows && i / GridCols < rows
  }

  /** The outcome of plotting `n` range keys on a grid with `rows` rows: IndexError when some key has no cell. */
  function PlotOutcome(rows: nat, n: nat): (r: Option<Error>)
    requires rows >= 1
    ensures r.None? <==> forall i :: 0 <= i < n ==> CellExists(rows, i)
    ensures r.Some? ==> r.value == IndexError
  {
    if n == 0 || (rows >= 2 && n <= GridCols * rows) then None
    else if rows < 2 then
      assert !CellExists(rows, 0);
      Some(IndexError)
    else
      assert !CellExists(rows, GridCols * rows);
      Some(IndexError)
  }

  /** The plot loops: every page, every range key's cell, until a key has none. */
  method PlotParamDistributions(rows: nat, keys: seq<string>) returns (r: Option<Error>)
    requires rows >= 1
    ensures r == PlotOutcome(rows, |keys|)
  {
    var page := 0;
    while page < PftCount
      invariant 0 <= page <= PftCount
      invariant page > 0 ==> PlotOutcome(rows, |keys|).None?
    {
      var i := 0;
      while i < |keys|
        invariant 0 <= i <= |keys|
        invariant forall j :: 0 <= j < i ==> CellExists(rows, j)
      {
        if !CellExists(rows, i) {
          return Some(IndexError);
        }
        i := i + 1;
      }
      page := page + 1;
    }
    return None;
  }

  /** The grid as written holds six keys: a seventh has no cell. */
  lemma GridHoldsSixKeys(n: nat)
    ensures PlotOutcome(GridRows, n).None? <==> n <= 6
    ensures n > 6 ==> !CellExists(GridRows, 6)
  {
  }

  /**
   * A one-row grid, squeezed to one-dimensional axes, raises at the first
   * key; the corrected grids for one to four keys have two rows.
   */
  lemma SqueezedGridRaises(n: nat)
    requires n > 0
    ensures PlotOutcome(1, n) == Some(IndexError)
    ensures n <= 4 ==> IntendedRows(n) == 2
  {
    assert !CellExists(1, 0);
  }

  /**
   * The grid the plot needs: one cell per range key, two to a row, at least
   * two rows so that the axes stay two-dimensional, and no row more.
   */
  function IntendedRows(n: nat): (rows: nat)
    ensures rows >= 2
    ensures PlotOutcome(rows, n).None?
    ensures rows > 2 ==> PlotOutcome(rows - 1, n).Some?
  {
    if n <= 4 then 2 else (n + 1) / 2
  }
}

=== FILE: random_mode.dfy ===
/**
 * Random mode (create_param_table_random.py, and the same loop in
 * create_param_table_csoil.py): N sets, each built from an empty dict by
 * visiting the specification's keys in order, drawing one value per key
 * from its [min, max] range and assigning the perturbed vector.
 *
 * The draws of `random.uniform` are an input: `draws[n][j]` is the value
 * drawn for the `j`-th key of the `n`-th set.
 */
module RandomMode {
  import opened Results
  import opened ParamSets
  import opened Rounding
  import opened Perturbation
  import opened Plotting

  /** Whether the assignment for `key` writes the entry `k`: its own, and TUPP alongside TLOW. */
  predicate Writes(key: string, k: string)
  {
    k == key || (key == "TLOW" && k == "TUPP")
  }

  /**
   * One key of one set: `random.uniform(spec[key][0], spec[key][1])` reads
   * two bounds (IndexError when the range lists fewer), then the drawn
   * value `v` is assigned into `acc`.
   */
  function Step(s: Script, defaults: Dict, spec: Dict, acc: Dict, key: string, v: real): Result<Dict, Error>
  {
    if |GetOrEmpty(spec, key)| < 2 then Err(IndexError)
    else AssignPerturbed(s, acc, defaults, key, v)
  }

  /**
   * When a step raises: the range lists fewer than two bounds, the key (or
   * TUPP alongside TLOW) is missing from the defaults, or its vector is too
   * short for its rule. Neither the drawn value nor the dict being filled
   * matters.
   */
  predicate StepFails(s: Script, defaults: Dict, spec: Dict, key: string)
  {
    || |GetOrEmpty(spec, key)| < 2
    || key !in defaults.entries
    || RuleFails(RuleFor(s, key), defaults.entries[key])
    || (key == "TLOW" && ("TUPP" !in defaults.entries || RuleFails(RuleFor(s, "TUPP"), defaults.entries["TUPP"])))
  }

  lemma StepFailsIff(s: Script, defaults: Dict, spec: Dict, acc: Dict, key: string, v: real)
    ensures Step(s, defaults, spec, acc, key, v).Err? <==> StepFails(s, defaults, spec, key)
  {
    if key in defaults.entries {
      PerturbedKeepsLength(s, defaults.entries[key], key, v);
    }
    if "TUPP" in defaults.entries {
      PerturbedKeepsLength(s, defaults.entries["TUPP"], "TUPP", v);
    }
  }

  /** The set after the first `i` keys, visited in order with their drawn values; the first exception wins. */
  function DrawPrefix(s: Script, defaults: Dict, spec: Dict, keys: seq<string>, draw: seq<real>, i: int): Result<Dict, Error>
    requires |draw| == |keys| && 0 <= i <= |keys|
    decreases i
  {
    if i == 0 then Ok(Empty)
    else match DrawPrefix(s, defaults, spec, keys, draw, i - 1)
      case Err(e) => Err(e)
      case Ok(acc) => Step(s, defaults, spec, acc, keys[i - 1], draw[i - 1])
  }

  /** The set built from the keys `keys` with the drawn values `draw`. */
  function DrawSet(s: Script, defaults: Dict, spec: Dict, keys: seq<string>, draw: seq<real>): Result<Dict, Error>
    requires |draw| == |keys|
  {
    DrawPrefix(s, defaults, spec, keys, draw, |keys|)
  }

  /** generate_random_perturbed_params: one set per draw vector, in order; the first exception wins. */
  function RandomSets(s: Script, defaults: Dict, spec: Dict, draws: seq<seq<real>>): (r: Result<seq<Dict>, Error>)
    requires forall n :: 0 <= n < |draws| ==> |draws[n]| == |spec.keys|
    decreases |draws|
    ensures r.Ok? ==> |r.value| == |draws|
  {
    if draws == [] then Ok([])
    else match DrawSet(s, defaults, spec, spec.keys, draws[0])
      case Err(e) => Err(e)
      case Ok(first) => Extend([first], RandomSets(s, defaults, spec, draws[1..]))
  }

  /** The `n`-th set is built from the `n`-th draw vector, and the whole fails exactly when one set fails. */
  lemma {:induction false} RandomSetsElementwise(s: Script, defaults: Dict, spec: Dict, draws: seq<seq<real>>)
    requires forall n :: 0 <= n < |draws| ==> |draws[n]| == |spec.keys|
    ensures var r := RandomSets(s, defaults, spec, draws);
      && (r.Ok? ==> forall n :: 0 <= n < |draws| ==> DrawSet(s, defaults, spec, spec.keys, draws[n]) == Ok(r.value[n]))
      && (r.Err? <==> exists n :: 0 <= n < |draws| && DrawSet(s, defaults, spec, spec.keys, draws[n]).Err?)
  {
    if draws != [] {
      RandomSetsElementwise(s, defaults, spec, draws[1..]);
      assert forall n :: 1 <= n < |draws| ==> draws[n] == draws[1..][n - 1];
      var first := DrawSet(s, defaults, spec, spec.keys, draws[0]);
      if first.Ok? {
        var rest := RandomSets(s, defaults, spec, draws[1..]);
        assert RandomSets(s, defaults, spec, draws) == Extend([first.value], rest);
      }
    }
  }

  /** Once the first `j` keys fail, every longer prefix fails with the same exception. */
  lemma {:induction false} PrefixErrorPersists(s: Script, defaults: Dict, spec: Dict, keys: seq<string>, draw: seq<real>, j: int, i: int)
    requires |draw| == |keys| && 0 <= j <= i <= |keys|
    requires DrawPrefix(s, defaults, spec, keys, draw, j).Err?
    ensures DrawPrefix(s, defaults, spec, keys, draw, i) == DrawPrefix(s, defaults, spec, keys, draw, j)
    decreases i
  {
    if j < i {
      PrefixErrorPersists(s, defaults, spec, keys, draw, j, i - 1);
    }
  }

  /** A prefix fails exactly when one of its keys fails; which keys came before does not matter. */
  lemma {:induction false} PrefixFailsIff(s: Script, defaults: Dict, spec: Dict, keys: seq<string>, draw: seq<real>, i: int)
    requires |draw| == |keys| && 0 <= i <= |keys|
    ensures DrawPrefix(s, defaults, spec, keys, draw, i).Err? <==>
      exists j :: 0 <= j < i && StepFails(s, defaults, spec, keys[j])
    decreases i
  {
    if i > 0 {
      var prefix := DrawPrefix(s, defaults, spec, keys, draw, i - 1);
      PrefixFailsIff(s, defaults, spec, keys, draw, i - 1);
      if prefix.Err? {
        var j :| 0 <= j < i - 1 && StepFails(s, defaults, spec, keys[j]);
        assert 0 <= j < i && StepFails(s, defaults, spec, keys[j]);
      } else {
        PrefixStepFails(s, defaults, spec, keys, draw, i);
        if StepFails(s, defaults, spec, keys[i - 1]) {
          assert 0 <= i - 1 < i && StepFails(s, defaults, spec, keys[i - 1]);
        } else {
          forall j | 0 <= j < i
            ensures !StepFails(s, defaults, spec, keys[j])
          {
            if j < i - 1 {
              assert !(0 <= j < i - 1 && StepFails(s, defaults, spec, keys[j]));
            }
          }
        }
      }
    }
  }

  /** After a successful prefix, the next key decides alone whether the longer prefix fails. */
  lemma PrefixStepFails(s: Script, defaults: Dict, spec: Dict, keys: seq<string>, draw: seq<real>, i: int)
    requires |draw| == |keys| && 0 < i <= |keys|
    requires DrawPrefix(s, defaults, spec, keys, draw, i - 1).Ok?
    ensures DrawPrefix(s, defaults, spec, keys, draw, i).Err? <==> StepFails(s, defaults, spec, keys[i - 1])
  {
    var prefix := DrawPrefix(s, defaults, spec, keys, draw, i - 1);
    StepFailsIff(s, defaults, spec, prefix.value, keys[i - 1], draw[i - 1]);
  }

  /** The set is a well-formed dict... */
  lemma {:induction false} PrefixWellFormed(s: Script, defaults: Dict, spec: Dict, keys: seq<string>, draw: seq<real>, i: int)
    requires |draw| == |keys| && 0 <= i <= |keys|
    requires DrawPrefix(s, defaults, spec, keys, draw, i).Ok?
    ensures WellFormed(DrawPrefix(s, defaults, spec, keys, draw, i).value)
    decreases i
  {
    if i > 0 {
      var prefix := DrawPrefix(s, defaults, spec, keys, draw, i - 1);
      PrefixWellFormed(s, defaults, spec, keys, draw, i - 1);
      AssignPerturbedKeys(s, prefix.value, defaults, keys[i - 1], draw[i - 1]);
    }
  }

  /** ... holding exactly the keys some assignment wrote: the specification's keys, and TUPP when TLOW is among them. */
  lemma {:induction false} PrefixKeys(s: Script, defaults: Dict, spec: Dict, keys: seq<string>, draw: seq<real>, i: int, k: string)
    requires |draw| == |keys| && 0 <= i <= |keys|
    requires DrawPrefix(s, defaults, spec, keys, draw, i).Ok?
    ensures k in DrawPrefix(s, defaults, spec, keys, draw, i).value.entries <==>
      exists j :: 0 <= j < i && Writes(keys[j], k)
    decreases i
  {
    if i > 0 {
      var prefix := DrawPrefix(s, defaults, spec, keys, draw, i - 1);
      PrefixKeys(s, defaults, spec, keys, draw, i - 1, k);
      StepEntry(s, defaults, spec, prefix.value, keys[i - 1], draw[i - 1], k);
    }
  }

  /**
   * Every entry of the set is the perturbation of its default by the value
   * drawn for the LAST key that wrote it: its own key, or TLOW for TUPP.
   */
  lemma {:induction false} PrefixValue(s: Script, defaults: Dict, spec: Dict, keys: seq<string>, draw: seq<real>, i: int, k: string, j: int)
    requires |draw| == |keys| && 0 <= i <= |keys|
    requires DrawPrefix(s, defaults, spec, keys, draw, i).Ok?
    requires 0 <= j < i && Writes(keys[j], k)
    requires forall j' :: j < j' < i ==> !Writes(keys[j'], k)
    ensures k in defaults.entries && Perturbed(s, defaults.entries[k], k, draw[j]).Ok?
    ensures k in DrawPrefix(s, defaults, spec, keys, draw, i).value.entries
    ensures DrawPrefix(s, defaults, spec, keys, draw, i).value.entries[k] == Perturbed(s, defaults.entries[k], k, draw[j]).value
    decreases i
  {
    var prefix := DrawPrefix(s, defaults, spec, keys, draw, i - 1);
    StepEntry(s, defaults, spec, prefix.value, keys[i - 1], draw[i - 1], k);
    if j < i - 1 {
      PrefixValue(s, defaults, spec, keys, draw, i - 1, k, j);
    }
  }

  /** A successful step writes the perturbed default into the entries it writes and leaves every other entry as it was. */
  lemma StepEntry(s: Script, defaults: Dict, spec: Dict, acc: Dict, key: string, v: real, k: string)
    requires Step(s, defaults, spec, acc, key, v).Ok?
    ensures var r := Step(s, defaults, spec, acc, key, v).value.entries;
      if Writes(key, k) then
        && k in defaults.entries && Perturbed(s, defaults.entries[k], k, v).Ok?
        && k in r && r[k] == Perturbed(s, defaults.entries[k], k, v).value
      else
        && (k in r <==> k in acc.entries)
        && (k in r ==> r[k] == acc.entries[k])
  {
  }

  /** A set fails exactly when one of its keys fails. */
  lemma DrawSetFailsIff(s: Script, defaults: Dict, spec: Dict, keys: seq<string>, draw: seq<real>)
    requires |draw| == |keys|
    ensures DrawSet(s, defaults, spec, keys, draw).Err? <==>
      exists j :: 0 <= j < |keys| && StepFails(s, defaults, spec, keys[j])
  {
    PrefixFailsIff(s, defaults, spec, keys, draw, |keys|);
  }

  /** That is: the keys the specification lists, plus TUPP when it lists TLOW, and nothing else. */
  lemma DrawSetHoldsSpecKeys(s: Script, defaults: Dict, spec: Dict, draw: seq<real>, k: string)
    requires |draw| == |spec.keys| && DrawSet(s, defaults, spec, spec.keys, draw).Ok?
    ensures k in DrawSet(s, defaults, spec, spec.keys, draw).value.entries <==>
      k in spec.keys || (k == "TUPP" && "TLOW" in spec.keys)
  {
    PrefixKeys(s, defaults, spec, spec.keys, draw, |spec.keys|, k);
    if k in spec.keys {
      var j :| 0 <= j < |spec.keys| && spec.keys[j] == k;
      assert Writes(spec.keys[j], k);
    } else if k == "TUPP" && "TLOW" in spec.keys {
      var j :| 0 <= j < |spec.keys| && spec.keys[j] == "TLOW";
      assert Writes(spec.keys[j], k);
    }
  }

  /**
   * With a specification whose keys are distinct (every dict's are), the
   * entry of each key is perturbed by its own draw, unless it is TUPP and
   * TLOW comes after it.
   */
  lemma SpecKeyValue(s: Script, defaults: Dict, spec: Dict, draw: seq<real>, j: int)
    requires WellFormed(spec) && |draw| == |spec.keys|
    requires DrawSet(s, defaults, spec, spec.keys, draw).Ok?
    requires 0 <= j < |spec.keys|
    requires spec.keys[j] == "TUPP" ==> forall j' :: j < j' < |spec.keys| ==> spec.keys[j'] != "TLOW"
    ensures var key := spec.keys[j];
      && key in defaults.entries && Perturbed(s, defaults.entries[key], key, draw[j]).Ok?
      && key in DrawSet(s, defaults, spec, spec.keys, draw).value.entries
      && DrawSet(s, defaults, spec, spec.keys, draw).value.entries[key] == Perturbed(s, defaults.entries[key], key, draw[j]).value
  {
    PrefixValue(s, defaults, spec, spec.keys, draw, |spec.keys|, spec.keys[j], j);
  }

  /** When the specification lists TLOW but not TUPP, TUPP is perturbed by TLOW's draw. */
  lemma TuppFollowsTlow(s: Script, defaults: Dict, spec: Dict, draw: seq<real>, t: int)
    requires WellFormed(spec) && |draw| == |spec.keys|
    requires DrawSet(s, defaults, spec, spec.keys, draw).Ok?
    requires 0 <= t < |spec.keys| && spec.keys[t] == "TLOW" && "TUPP" !in spec.entries
    ensures "TUPP" in defaults.entries && Perturbed(s, defaults.entries["TUPP"], "TUPP", draw[t]).Ok?
    ensures "TUPP" in DrawSet(s, defaults, spec, spec.keys, draw).value.entries
    ensures DrawSet(s, defaults, spec, spec.keys, draw).value.entries["TUPP"] == Perturbed(s, defaults.entries["TUPP"], "TUPP", draw[t]).value
  {
    PrefixValue(s, defaults, spec, spec.keys, draw, |spec.keys|, "TUPP", t);
  }

  /**
   * A key whose draw is the anchor of its rule (as a degenerate range
   * `[x, x]` with x the anchor forces) comes out as its default, rounded as
   * the script rounds it.
   */
  lemma AnchoredDrawReproducesDefault(s: Script, defaults: Dict, spec: Dict, draw: seq<real>, j: int)
    requires WellFormed(spec) && |draw| == |spec.keys|
    requires DrawSet(s, defaults, spec, spec.keys, draw).Ok?
    requires 0 <= j < |spec.keys|
    requires spec.keys[j] == "TUPP" ==> forall j' :: j < j' < |spec.keys| ==> spec.keys[j'] != "TLOW"
    requires spec.keys[j] in defaults.entries
    requires Anchored(RuleFor(s, spec.keys[j]), defaults.entries[spec.keys[j]], draw[j])
    ensures var key := spec.keys[j];
      && key in DrawSet(s, defaults, spec, spec.keys, draw).value.entries
      && DrawSet(s, defaults, spec, spec.keys, draw).value.entries[key] == ApplyAll(PrecisionFor(s, key), defaults.entries[key])
  {
    var key := spec.keys[j];
    SpecKeyValue(s, defaults, spec, draw, j);
    AnchoredDrawReproduces(RuleFor(s, key), defaults.entries[key], draw[j]);
  }

  /** Each drawn value lies in its key's [min, max] range, as `random.uniform` draws it. */
  predicate InRanges(spec: Dict, draw: seq<real>)
    requires |draw| == |spec.keys|
  {
    forall j :: 0 <= j < |draw| ==>
      |GetOrEmpty(spec, spec.keys[j])| >= 2 && GetOrEmpty(spec, spec.keys[j])[0] <= draw[j] <= GetOrEmpty(spec, spec.keys[j])[1]
  }

  /**
   * A slot the rule sets to the drawn value (every slot of a broadcast key,
   * slot 0 of a pro-rata key, the tree slots of LAI_MIN) lies within the
   * key's [min, max] range, up to rounding, whenever the draw does.
   */
  lemma DrawnValueStaysInRange(s: Script, defaults: Dict, spec: Dict, keys: seq<string>, draw: seq<real>, j: int, i: int)
    requires |draw| == |keys| && DrawSet(s, defaults, spec, keys, draw).Ok?
    requires 0 <= j < |keys| && forall j' :: j < j' < |keys| ==> !Writes(keys[j'], keys[j])
    requires |GetOrEmpty(spec, keys[j])| >= 2
    requires GetOrEmpty(spec, keys[j])[0] <= draw[j] <= GetOrEmpty(spec, keys[j])[1]
    requires keys[j] in defaults.entries && 0 <= i < |defaults.entries[keys[j]]|
    requires SetsSlotToNewValue(RuleFor(s, keys[j]), i)
    ensures var key := keys[j];
      var e := HalfUnit(PrecisionFor(s, key));
      && key in DrawSet(s, defaults, spec, keys, draw).value.entries
      && |DrawSet(s, defaults, spec, keys, draw).value.entries[key]| == |defaults.entries[key]|
      && GetOrEmpty(spec, key)[0] - e <= DrawSet(s, defaults, spec, keys, draw).value.entries[key][i] <= GetOrEmpty(spec, key)[1] + e
  {
    var key := keys[j];
    PrefixValue(s, defaults, spec, keys, draw, |keys|, key, j);
    PerturbedKeepsLength(s, defaults.entries[key], key, draw[j]);
    DrawnSlotsStayInRange(s, defaults.entries[key], key, draw[j], GetOrEmpty(spec, key)[0], GetOrEmpty(spec, key)[1], i);
  }

  /** TLOW and TUPP are shifted by one shared draw, so their gap stays the default gap up to rounding. */
  lemma TlowTuppGapKept(s: Script, defaults: Dict, spec: Dict, keys: seq<string>, draw: seq<real>, t: int, i: int)
    requires |draw| == |keys| && DrawSet(s, defaults, spec, keys, draw).Ok?
    requires 0 <= t < |keys| && keys[t] == "TLOW"
    requires forall j' :: t < j' < |keys| ==> keys[j'] != "TLOW" && keys[j'] != "TUPP"
    requires "TLOW" in defaults.entries && "TUPP" in defaults.entries
    requires 0 <= i < |defaults.entries["TLOW"]| && i < |defaults.entries["TUPP"]|
    ensures var r := DrawSet(s, defaults, spec, keys, draw).value.entries;
      var e := 2.0 * HalfUnit(PrecisionFor(s, "TLOW"));
      var gap := defaults.entries["TUPP"][i] - defaults.entries["TLOW"][i];
      && "TLOW" in r && "TUPP" in r && i < |r["TLOW"]| && i < |r["TUPP"]|
      && gap - e <= r["TUPP"][i] - r["TLOW"][i] <= gap + e
  {
    var dLow, dUpp := defaults.entries["TLOW"], defaults.entries["TUPP"];
    PrefixValue(s, defaults, spec, keys, draw, |keys|, "TLOW", t);
    PrefixValue(s, defaults, spec, keys, draw, |keys|, "TUPP", t);
    PerturbedKeepsLength(s, dLow, "TLOW", draw[t]);
    PerturbedKeepsLength(s, dUpp, "TUPP", draw[t]);
    SharedDeltaKeepsGap(s, dLow, dUpp, draw[t], i);
    var r := DrawSet(s, defaults, spec, keys, draw).value.entries;
    assert r["TLOW"] == Perturbed(s, dLow, "TLOW", draw[t]).value;
    assert r["TUPP"] == Perturbed(s, dUpp, "TUPP", draw[t]).value;
  }

  /** The body of the inner loop: read the key's two bounds, then assign the perturbed vector (and TUPP's, for TLOW). */
  method DrawAndAssign(s: Script, defaults: Dict, spec: Dict, acc: Dict, key: string, v: real) returns (r: Result<Dict, Error>)
    ensures r == Step(s, defaults, spec, acc, key, v)
  {
    if |GetOrEmpty(spec, key)| < 2 {
      return Err(IndexError);
    }
    r := AssignPerturbedInPlace(s, acc, defaults, key, v);
  }

  /** The body of the script's outer loop: `perturbed_set = {}`, then one assignment per key in order. */
  method BuildSet(s: Script, defaults: Dict, spec: Dict, draw: seq<real>) returns (r: Result<Dict, Error>)
    requires |draw| == |spec.keys|
    ensures r == DrawSet(s, defaults, spec, spec.keys, draw)
  {
    var keys := spec.keys;
    var current := Empty;
    var i := 0;
    while i < |keys|
      invariant 0 <= i <= |keys|
      invariant DrawPrefix(s, defaults, spec, keys, draw, i) == Ok(current)
    {
      var updated := DrawAndAssign(s, defaults, spec, current, keys[i], draw[i]);
      if updated.Err? {
        PrefixErrorPersists(s, defaults, spec, keys, draw, i + 1, |keys|);
        return updated;
      }
      current := updated.value;
      i := i + 1;
    }
    return Ok(current);
  }

  /** generate_random_perturbed_params as the script writes it: one set per iteration of the outer loop. */
  method GenerateRandomPerturbedParamsLoop(s: Script, defaults: Dict, spec: Dict, draws: seq<seq<real>>)
    returns (r: Result<seq<Dict>, Error>)
    requires forall n :: 0 <= n < |draws| ==> |draws[n]| == |spec.keys|
    ensures r == RandomSets(s, defaults, spec, draws)
  {
    var sets: seq<Dict> := [];
    var n := 0;
    assert draws[n..] == draws;
    ExtendNothing(RandomSets(s, defaults, spec, draws));
    while n < |draws|
      invariant 0 <= n <= |draws|
      invariant RandomSets(s, defaults, spec, draws) == Extend(sets, RandomSets(s, defaults, spec, draws[n..]))
    {
      assert draws[n..][1..] == draws[n + 1..];
      var perturbedSet := BuildSet(s, defaults, spec, draws[n]);
      if perturbedSet.Err? {
        return Err(perturbedSet.error);
      }
      ExtendTwice(sets, [perturbedSet.value], RandomSets(s, defaults, spec, draws[n + 1..]));
      sets := sets + [perturbedSet.value];
      n := n + 1;
    }
    assert sets + [] == sets;
    return Ok(sets);
  }

  // ----- the table of create_param_table_random.py -----

  /** The defaults of run "acang" as the random script lists them. */
  const RandomDefaults: Dict := Dict(
    ["ALPHA", "G_AREA", "LAI_MIN", "NL0", "R_GROW", "TLOW", "TUPP", "V_CRIT_ALPHA"],
    map[
      "ALPHA" := [0.08, 0.08, 0.08, 0.05, 0.08],
      "G_AREA" := [0.004, 0.004, 0.10, 0.10, 0.05],
      "LAI_MIN" := [4.0, 4.0, 1.0, 1.0, 1.0],
      "NL0" := [0.050, 0.030, 0.060, 0.030, 0.030],
      "R_GROW" := [0.25, 0.25, 0.25, 0.25, 0.25],
      "TLOW" := [0.0, -5.0, 0.0, 13.0, 0.0],
      "TUPP" := [36.0, 31.0, 36.0, 45.0, 36.0],
      "V_CRIT_ALPHA" := [0.343]
    ])

  /** The [min, max] range drawn from for each perturbed key. */
  const RandomSpec: Dict := Dict(
    ["ALPHA", "G_AREA", "LAI_MIN", "NL0", "R_GROW", "TLOW", "V_CRIT_ALPHA"],
    map[
      "ALPHA" := [0.04, 0.16],
      "G_AREA" := [0.002, 0.008],
      "LAI_MIN" := [2.0, 4.0],
      "NL0" := [0.040, 0.065],
      "R_GROW" := [0.15, 0.30],
      "TLOW" := [-5.0, 5.0],
      "V_CRIT_ALPHA" := [0.3, 1.0]
    ])

  /** Every key of the random script's specification can be drawn and assigned, whatever the draw. */
  lemma RandomKeySucceeds(key: string)
    requires key in RandomSpec.keys
    ensures !StepFails(RandomTable, RandomDefaults, RandomSpec, key)
  {
    var d := RandomDefaults.entries;
    assert key in RandomSpec.entries && |RandomSpec.entries[key]| == 2;
    assert "TUPP" in d && |d["TUPP"]| == 5;
    if key == "V_CRIT_ALPHA" {
      assert RuleFor(RandomTable, key) == Broadcast;
    } else {
      assert key in d && |d[key]| == 5;
    }
  }

  /**
   * The random script as written: the generator yields its N sets and the
   * table is written, but the plot's grid has no cell for the seventh of the
   * seven range keys, so the plot then raises IndexError.
   */
  lemma RandomScriptAsWritten(draws: seq<seq<real>>)
    requires forall n :: 0 <= n < |draws| ==> |draws[n]| == |RandomSpec.keys|
    ensures RandomSets(RandomTable, RandomDefaults, RandomSpec, draws).Ok?
    ensures |RandomSpec.keys| == 7 && PlotOutcome(GridRows, |RandomSpec.keys|) == Some(IndexError)
  {
    RandomGeneratorNeverFails(draws);
    GridHoldsSixKeys(|RandomSpec.keys|);
  }

  /** The generator call never raises: it yields one set per draw vector, N of them. */
  lemma RandomGeneratorNeverFails(draws: seq<seq<real>>)
    requires forall n :: 0 <= n < |draws| ==> |draws[n]| == |RandomSpec.keys|
    ensures RandomSets(RandomTable, RandomDefaults, RandomSpec, draws).Ok?
    ensures |RandomSets(RandomTable, RandomDefaults, RandomSpec, draws).value| == |draws|
  {
    var keys := RandomSpec.keys;
    forall n | 0 <= n < |draws|
      ensures DrawSet(RandomTable, RandomDefaults, RandomSpec, keys, draws[n]).Ok?
    {
      DrawSetFailsIff(RandomTable, RandomDefaults, RandomSpec, keys, draws[n]);
      forall j | 0 <= j < |keys|
        ensures !StepFails(RandomTable, RandomDefaults, RandomSpec, keys[j])
      {
        RandomKeySucceeds(keys[j]);
      }
    }
    RandomSetsElementwise(RandomTable, RandomDefaults, RandomSpec, draws);
  }
}

=== FILE: results.dfy ===
/** Outcome of an operation that the Python source may abort with an exception. */
module Results {

  datatype Option<+T> = None | Some(value: T)

  /** `Err` stands for an exception raised by the source; `Ok` for a normal return. */
  datatype Result<+T, +E> = Ok(value: T) | Err(error: E)

  /** `done` followed by the outcome of the rest of a loop: the first exception wins. */
  function Extend<T, E>(done: seq<T>, rest: Result<seq<T>, E>): (r: Result<seq<T>, E>)
    ensures r.Ok? <==> rest.Ok?
    ensures r.Ok? ==> r.value == done + rest.value
    ensures r.Err? ==> r.error == rest.error
  {
    match rest
    case Ok(xs) => Ok(done + xs)
    case Err(e) => Err(e)
  }

  lemma ExtendNothing<T, E>(rest: Result<seq<T>, E>)
    ensures Extend([], rest) == rest
  {
    if rest.Ok? {
      assert [] + rest.value == rest.value;
    }
  }

  lemma ExtendTwice<T, E>(a: seq<T>, b: seq<T>, rest: Result<seq<T>, E>)
    ensures Extend(a, Extend(b, rest)) == Extend(a + b, rest)
  {
    if rest.Ok? {
      assert a + (b + rest.value) == (a + b) + rest.value;
    }
  }
}

=== FILE: rounding.dfy ===
/**
 * Python's `round(value, places)` on exact real values: the nearest multiple
 * of 10^-places, ties to the even multiple.
 */
module Rounding {

  /** How a script rounds a parameter's values: to a number of decimals, or not at all. */
  datatype Precision = Decimals(places: nat) | FullPrecision

  function Pow10(n: nat): (r: real)
    ensures r >= 1.0
  {
    if n == 0 then 1.0 else 10.0 * Pow10(n - 1)
  }

  /** The integer nearest to `y`; on a tie the even one. */
  function RoundHalfEven(y: real): (k: int)
    ensures k as real - 0.5 <= y <= k as real + 0.5
  {
    var f := y.Floor;
    var frac := y - f as real;
    if frac > 0.5 || (frac == 0.5 && f % 2 != 0) then f + 1 else f
  }

  /** A value half-way between two integers goes to the even one. */
  lemma TiesToEven(y: real)
    requires y == RoundHalfEven(y) as real - 0.5 || y == RoundHalfEven(y) as real + 0.5
    ensures RoundHalfEven(y) % 2 == 0
  {
  }

  /** `x` measured in units of the last kept decimal place. */
  function Scaled(x: real, places: nat): real
  {
    x * Pow10(places)
  }

  /** round(x, places) */
  function Round(x: real, places: nat): real
  {
    RoundHalfEven(Scaled(x, places)) as real / Pow10(places)
  }

  /** Half a unit in the last kept place: the most rounding can move a value. */
  function HalfUnit(prec: Precision): (e: real)
    ensures e >= 0.0
    ensures prec.FullPrecision? ==> e == 0.0
    ensures prec.Decimals? ==> 0.0 < e <= 0.5
  {
    match prec
    case Decimals(places) => 0.5 / Pow10(places)
    case FullPrecision => 0.0
  }

  function Apply(prec: Precision, x: real): real
  {
    match prec
    case Decimals(places) => Round(x, places)
    case FullPrecision => x
  }

  /** `[round(value, places) for value in values]`, or the values themselves. */
  function ApplyAll(prec: Precision, xs: seq<real>): (r: seq<real>)
    ensures |r| == |xs|
    ensures forall i :: 0 <= i < |xs| ==> xs[i] - HalfUnit(prec) <= r[i] <= xs[i] + HalfUnit(prec)
    ensures prec.FullPrecision? ==> r == xs
  {
    var r := seq(|xs|, i requires 0 <= i < |xs| => Apply(prec, xs[i]));
    assert forall i :: 0 <= i < |xs| ==> xs[i] - HalfUnit(prec) <= r[i] <= xs[i] + HalfUnit(prec) by {
      forall i | 0 <= i < |xs|
        ensures xs[i] - HalfUnit(prec) <= r[i] <= xs[i] + HalfUnit(prec)
      {
        ApplyIsNearest(prec, xs[i]);
      }
    }
    r
  }

  /** Rounding moves a value by at most half a unit in the last kept place. */
  lemma RoundIsNearest(x: real, places: nat)
    ensures x - 0.5 / Pow10(places) <= Round(x, places) <= x + 0.5 / Pow10(places)
  {
    var k := RoundHalfEven(Scaled(x, places)) as real;
    RoundBracket(x, places);
    NearestOnGrid(x, Pow10(places), k, Round(x, places));
  }

  /** `r` is `k / p` for an integer-valued `k` within half a unit of `x * p`. */
  predicate OnGrid(x: real, p: real, k: real, r: real)
  {
    p > 0.0 && k - 0.5 <= x * p <= k + 0.5 && r == k / p
  }

  /** `round` divides back the nearest integer to the scaled value. */
  lemma RoundBracket(x: real, places: nat)
    ensures OnGrid(x, Pow10(places), RoundHalfEven(Scaled(x, places)) as real, Round(x, places))
  {
  }

  lemma NearestOnGrid(x: real, p: real, k: real, r: real)
    requires OnGrid(x, p, k, r)
    ensures x - 0.5 / p <= r <= x + 0.5 / p
  {
    var d := k - x * p;
    DivideSum(x * p, d, p);
    MultiplyThenDivide(x, p);
    DivideMonotone(-0.5, d, p);
    DivideMonotone(d, 0.5, p);
    assert -0.5 / p == -(0.5 / p);
  }

  lemma MultiplyThenDivide(x: real, p: real)
    requires p > 0.0
    ensures (x * p) / p == x
  {
  }

  lemma DivideSum(a: real, b: real, p: real)
    requires p > 0.0
    ensures (a + b) / p == a / p + b / p
  {
  }

  lemma DivideMonotone(a: real, b: real, p: real)
    requires p > 0.0 && a <= b
    ensures a / p <= b / p
  {
    assert b / p - a / p == (b - a) / p;
  }

  lemma ApplyIsNearest(prec: Precision, x: real)
    ensures x - HalfUnit(prec) <= Apply(prec, x) <= x + HalfUnit(prec)
  {
    if prec.Decimals? {
      RoundIsNearest(x, prec.places);
    }
  }

  /** A value that already has at most `places` decimals is left as it is. */
  lemma RoundKeepsGridValue(n: int, places: nat)
    ensures Round(n as real / Pow10(places), places) == n as real / Pow10(places)
  {
    var p := Pow10(places);
    MultiplyThenDivide(n as real, p);
    assert Scaled(n as real / p, places) == n as real;
  }

  /** Rounding twice is rounding once. */
  lemma RoundIdempotent(x: real, places: nat)
    ensures Round(Round(x, places), places) == Round(x, places)
  {
    RoundKeepsGridValue(RoundHalfEven(Scaled(x, places)), places);
  }
}

=== FILE: table_writer.dfy ===
/**
 * The layout of a parameter-table file (`_format_json_string` and
 * `create_json_file`): a JSON array whose first element is the default set
 * and whose other elements are the perturbed sets, in order, each object
 * indented by 4 spaces. The encoding of a value vector (`json.dumps`) is a
 * parameter: the layout does not depend on it.
 */
module TableWriter {
  import opened ParamSets

  /** `sep.join(parts)`. */
  function Join(sep: string, parts: seq<string>): (r: string)
    ensures |parts| == 1 ==> r == parts[0]
  {
    if parts == [] then ""
    else if |parts| == 1 then parts[0]
    else parts[0] + sep + Join(sep, parts[1..])
  }

  /** Joining one more part adds the separator and the part at the end. */
  lemma {:induction false} JoinSnoc(sep: string, parts: seq<string>, last: string)
    requires parts != []
    ensures Join(sep, parts + [last]) == Join(sep, parts) + sep + last
  {
    if |parts| > 1 {
      assert (parts + [last])[1..] == parts[1..] + [last];
      JoinSnoc(sep, parts[1..], last);
    } else {
      assert (parts + [last])[1..] == [last];
    }
  }

  /** One line of an object: the key in quotes, a colon and the encoded vector. */
  function Member(item: Dict, key: string, encode: seq<real> -> string): string
  {
    "  \"" + key + "\": " + encode(GetOrEmpty(item, key))
  }

  /** `_format_json_string(item)`: the members in the dict's key order, one per line, between braces. */
  function FormatObject(item: Dict, encode: seq<real> -> string): string
  {
    "{\n" + Join(",\n", Members(item, encode)) + "\n}"
  }

  /** An object opens with a brace line and closes with a closing brace on a line of its own. */
  lemma FormatObjectBraces(item: Dict, encode: seq<real> -> string)
    ensures var r := FormatObject(item, encode);
      |r| >= 4 && r[..2] == "{\n" && r[|r| - 2..] == "\n}"
  {
    var body := Join(",\n", Members(item, encode));
    var r := FormatObject(item, encode);
    assert r == "{\n" + body + "\n}";
    assert r[..2] == "{\n";
    assert r[|r| - 2..] == "\n}";
  }

  /** A set without keys is an empty line between braces. */
  lemma FormatObjectEmpty(encode: seq<real> -> string)
    ensures FormatObject(Empty, encode) == "{\n\n}"
  {
  }

  /** A set with one key is that key's member line between the brace lines. */
  lemma FormatObjectSingle(key: string, v: seq<real>, encode: seq<real> -> string)
    ensures FormatObject(Dict([key], map[key := v]), encode)
      == "{\n  \"" + key + "\": " + encode(v) + "\n}"
  {
    var item := Dict([key], map[key := v]);
    assert GetOrEmpty(item, key) == v;
    assert Members(item, encode) == [Member(item, key, encode)];
  }

  /** The member lines of a set, in its key order. */
  function Members(item: Dict, encode: seq<real> -> string): (r: seq<string>)
    ensures |r| == |item.keys|
  {
    seq(|item.keys|, i requires 0 <= i < |item.keys| => Member(item, item.keys[i], encode))
  }

  /**
   * Adding a key to a set adds its member line last: the object is the old
   * one without its closing line, a comma and a newline, the new member line
   * and the closing line. So a set of any size is characterised from
   * `FormatObjectSingle` key by key.
   */
  lemma FormatObjectAppend(item: Dict, key: string, v: seq<real>, encode: seq<real> -> string)
    requires item.keys != [] && key !in item.keys && key !in item.entries
    ensures var before := FormatObject(item, encode);
      |before| >= 2 &&
      FormatObject(Put(item, key, v), encode) == before[..|before| - 2] + ",\n" + Member(Put(item, key, v), key, encode) + "\n}"
  {
    var after := Put(item, key, v);
    var ms := Members(item, encode);
    var last := Member(after, key, encode);
    assert after.keys == item.keys + [key];
    forall i | 0 <= i < |item.keys|
      ensures Member(after, after.keys[i], encode) == ms[i]
    {
      assert after.keys[i] == item.keys[i] != key;
    }
    assert Members(after, encode) == ms + [last];
    JoinSnoc(",\n", ms, last);
    var before := FormatObject(item, encode);
    assert before == "{\n" + Join(",\n", ms) + "\n}";
    assert before[..|before| - 2] == "{\n" + Join(",\n", ms);
  }

  /** `s.replace("\n", "\n    ")`. */
  function ReplaceNewlines(s: string): (r: string)
    ensures |r| >= |s|
  {
    if s == [] then ""
    else (if s[0] == '\n' then "\n    " else [s[0]]) + ReplaceNewlines(s[1..])
  }

  /** Four spaces in front of every line. */
  function Indent(s: string): string
  {
    "    " + ReplaceNewlines(s)
  }

  /** The inverse of `ReplaceNewlines`: drop the four spaces after every newline. */
  function Dedent(s: string): string
  {
    if s == [] then ""
    else if s[0] == '\n' && |s| >= 5 && s[1..5] == "    " then "\n" + Dedent(s[5..])
    else [s[0]] + Dedent(s[1..])
  }

  /** Removes the four spaces in front of every line. */
  function Unindent(s: string): string
  {
    if |s| >= 4 && s[..4] == "    " then Dedent(s[4..]) else Dedent(s)
  }

  lemma {:induction false} ReplaceNewlinesAppend(s: string, t: string)
    ensures ReplaceNewlines(s + t) == ReplaceNewlines(s) + ReplaceNewlines(t)
  {
    if s != [] {
      assert (s + t)[1..] == s[1..] + t;
      ReplaceNewlinesAppend(s[1..], t);
    } else {
      assert s + t == t;
    }
  }

  /** Dedenting undoes the replacement: no line's text is lost or changed. */
  lemma {:induction false} DedentReplaceNewlines(s: string)
    ensures Dedent(ReplaceNewlines(s)) == s
  {
    if s != [] {
      var r := ReplaceNewlines(s);
      DedentReplaceNewlines(s[1..]);
      if s[0] == '\n' {
        assert r[1..5] == "    " && r[5..] == ReplaceNewlines(s[1..]);
      } else {
        assert r[1..] == ReplaceNewlines(s[1..]);
      }
    }
  }

  /** So unindenting an indented object gives the object back. */
  lemma UnindentIndent(s: string)
    ensures Unindent(Indent(s)) == s
  {
    var r := Indent(s);
    assert r[..4] == "    " && r[4..] == ReplaceNewlines(s);
    DedentReplaceNewlines(s);
  }

  /** Every newline of an indented text is followed by four spaces. */
  predicate SpacesAfterNewlines(r: string)
  {
    forall i :: 0 <= i < |r| && r[i] == '\n' ==> i + 5 <= |r| && r[i + 1..i + 5] == "    "
  }

  lemma {:induction false} NewlinesIndented(s: string)
    ensures SpacesAfterNewlines(ReplaceNewlines(s))
  {
    if s != [] {
      NewlinesIndented(s[1..]);
      var r := ReplaceNewlines(s);
      var rest := ReplaceNewlines(s[1..]);
      assert SpacesAfterNewlines(rest);
      var h := if s[0] == '\n' then "\n    " else [s[0]];
      assert r == h + rest;
      forall i | 0 <= i < |r| && r[i] == '\n'
        ensures i + 5 <= |r| && r[i + 1..i + 5] == "    "
      {
        if i < |h| {
          assert h[i] == '\n';
          assert i == 0 && s[0] == '\n';
          assert r[1..5] == h[1..5];
        } else {
          assert rest[i - |h|] == '\n';
          assert r[i + 1..i + 5] == rest[i - |h| + 1..i - |h| + 5];
        }
      }
    }
  }

  /** A text without newlines, such as a comma, is appended unchanged. */
  lemma IndentAppendComma(s: string)
    ensures Indent(s + ",") == Indent(s) + ","
  {
    ReplaceNewlinesAppend(s, ",");
  }

  /** The `i`-th part, then the separator unless it is the last. */
  function Piece(parts: seq<string>, i: nat, sep: string): string
    requires i < |parts|
  {
    if i < |parts| - 1 then parts[i] + sep else parts[i]
  }

  /** The first `n` pieces, in order. */
  function Pieces(parts: seq<string>, n: nat, sep: string): string
    requires n <= |parts|
  {
    if n == 0 then "" else Pieces(parts, n - 1, sep) + Piece(parts, n - 1, sep)
  }

  /** The objects, each indented. */
  function IndentAll(objects: seq<string>): (r: seq<string>)
    ensures |r| == |objects| && forall i :: 0 <= i < |objects| ==> r[i] == Indent(objects[i])
  {
    seq(|objects|, i requires 0 <= i < |objects| => Indent(objects[i]))
  }

  /** What the file holds before the perturbed sets: the opening bracket and the indented default object with its comma. */
  function Head(first: string): string
  {
    "[\n" + Indent(first) + ",\n"
  }

  /** The file for a formatted default object and formatted perturbed objects, as the writer emits it piece by piece. */
  function Layout(first: string, objects: seq<string>): string
  {
    Head(first) + Pieces(IndentAll(objects), |objects|, ",\n") + "\n]"
  }

  /** `_format_json_string` with the vector encoding fixed, as a function of the set. */
  function Formatter(encode: seq<real> -> string): Dict -> string
  {
    item => FormatObject(item, encode)
  }

  /** Each perturbed set, formatted. */
  function Formatted(data: seq<Dict>, format: Dict -> string): (r: seq<string>)
    ensures |r| == |data| && forall i :: 0 <= i < |data| ==> r[i] == format(data[i])
  {
    seq(|data|, i requires 0 <= i < |data| => format(data[i]))
  }

  /** The whole file `create_json_file` writes for the defaults and the perturbed sets. */
  function TableText(defaults: Dict, data: seq<Dict>, encode: seq<real> -> string): string
  {
    Layout(FormatObject(defaults, encode), Formatted(data, Formatter(encode)))
  }

  lemma Assoc<T>(a: seq<T>, b: seq<T>, c: seq<T>)
    ensures a + (b + c) == (a + b) + c
  {
  }

  /** Before the last piece, the pieces so far are the first parts joined, each followed by the separator. */
  lemma {:induction false} PiecesSoFar(x: string, parts: seq<string>, n: nat, sep: string)
    requires n < |parts|
    ensures (x + sep) + Pieces(parts, n, sep) == Join(sep, [x] + parts[..n]) + sep
  {
    if n == 0 {
      assert [x] + parts[..0] == [x];
    } else {
      PiecesSoFar(x, parts, n - 1, sep);
      var before := Join(sep, [x] + parts[..n - 1]);
      var p := parts[n - 1];
      assert [x] + parts[..n] == ([x] + parts[..n - 1]) + [p];
      JoinSnoc(sep, [x] + parts[..n - 1], p);
      Assoc(x + sep, Pieces(parts, n - 1, sep), p + sep);
      Assoc(before + sep, p, sep);
    }
  }

  /** All the pieces: the parts joined, the last without a separator. */
  lemma PiecesJoined(x: string, parts: seq<string>, sep: string)
    requires |parts| > 0
    ensures (x + sep) + Pieces(parts, |parts|, sep) == Join(sep, [x] + parts)
  {
    var n := |parts| - 1;
    PiecesSoFar(x, parts, n, sep);
    assert parts == parts[..n] + [parts[n]];
    Assoc([x], parts[..n], [parts[n]]);
    JoinSnoc(sep, [x] + parts[..n], parts[n]);
    Assoc(x + sep, Pieces(parts, n, sep), parts[n]);
  }

  /**
   * With at least one perturbed object the file is a JSON array layout:
   * the indented objects, the default one first, separated by a comma and a
   * newline, between a bracket line and a closing bracket.
   */
  lemma LayoutIsJoin(first: string, objects: seq<string>)
    requires |objects| > 0
    ensures Layout(first, objects) == "[\n" + Join(",\n", IndentAll([first] + objects)) + "\n]"
  {
    var x := Indent(first);
    var parts := IndentAll(objects);
    PiecesJoined(x, parts, ",\n");
    assert IndentAll([first] + objects) == [x] + parts;
    Assoc("[\n", x, ",\n");
    Assoc("[\n", x + ",\n", Pieces(parts, |parts|, ",\n"));
  }

  /** Without perturbed objects the default object keeps its trailing comma, before an empty line and the closing bracket. */
  lemma LayoutNoData(first: string)
    ensures Layout(first, []) == "[\n" + Indent(first) + ",\n\n]"
  {
  }

  /** The file being written: what has been written to it so far. */
  class JsonFile {
    var content: string

    /** `open(filename, "w")` starts from an empty file. */
    constructor ()
      ensures content == ""
    {
      content := "";
    }

    /** `file.write(s)`. */
    method Write(s: string)
      modifies this
      ensures content == old(content) + s
    {
      content := content + s;
    }
  }

  /** One object of the loop: a comma after it unless it is the last, the indented text, then a newline unless it is the last. */
  method WriteObject(file: JsonFile, formatted: string, last: bool)
    modifies file
    ensures file.content == old(file.content) + (if last then Indent(formatted) else Indent(formatted) + ",\n")
  {
    ghost var before := file.content;
    var text := formatted;
    if !last {
      text := text + ",";
    }
    file.Write(Indent(text));
    if !last {
      file.Write("\n");
      IndentAppendComma(formatted);
      Assoc(before, Indent(formatted) + ",", "\n");
      Assoc(Indent(formatted), ",", "\n");
    }
  }

  /** Writing one more piece after the first `i` gives the first `i + 1`. */
  lemma PiecesStep(head: string, parts: seq<string>, i: nat, sep: string)
    requires i < |parts|
    ensures head + Pieces(parts, i + 1, sep) == (head + Pieces(parts, i, sep)) + Piece(parts, i, sep)
  {
    Assoc(head, Pieces(parts, i, sep), Piece(parts, i, sep));
  }

  /** The loop over the perturbed objects: each indented, a comma and a newline after all but the last. */
  method WriteObjects(file: JsonFile, data: seq<Dict>, format: Dict -> string, ghost head: string)
    modifies file
    requires file.content == head
    ensures file.content == head + Pieces(IndentAll(Formatted(data, format)), |data|, ",\n")
  {
    ghost var parts := IndentAll(Formatted(data, format));
    var i := 0;
    while i < |data|
      invariant 0 <= i <= |data| == |parts|
      invariant file.content == head + Pieces(parts, i, ",\n")
    {
      var formatted := format(data[i]);
      var last := i == |data| - 1;
      assert parts[i] == Indent(formatted);
      WriteObject(file, formatted, last);
      PiecesStep(head, parts, i, ",\n");
      i := i + 1;
    }
  }

  /**
   * The statements of `create_json_file` inside the `with` block, for any
   * formatter of a set: the bracket line, the default object with its comma
   * and newline, each perturbed object (a comma and a newline after all but
   * the last), the closing bracket.
   */
  method WriteTable(file: JsonFile, defaults: Dict, data: seq<Dict>, format: Dict -> string)
    modifies file
    ensures file.content == old(file.content) + Layout(format(defaults), Formatted(data, format))
  {
    ghost var start := file.content;
    file.Write("[\n");
    var first := format(defaults);
    WriteObject(file, first, false);
    ghost var head := start + Head(first);
    assert file.content == head by {
      Assoc("[\n", Indent(first), ",\n");
      Assoc(start, "[\n", Indent(first) + ",\n");
    }
    WriteObjects(file, data, format, head);
    ghost var pieces := Pieces(IndentAll(Formatted(data, format)), |data|, ",\n");
    file.Write("\n]");
    Assoc(start, Head(first), pieces);
    Assoc(start, Head(first) + pieces, "\n]");
  }

  /** `create_json_file(filename, data, default_params)`: a new file holding the table. */
  method CreateJsonFile(defaults: Dict, data: seq<Dict>, encode: seq<real> -> string) returns (file: JsonFile)
    ensures fresh(file)
    ensures file.content == TableText(defaults, data, encode)
  {
    file := new JsonFile();
    WriteTable(file, defaults, data, Formatter(encode));
    assert Formatter(encode)(defaults) == FormatObject(defaults, encode);
  }
}
